=== FILE: README.md ===
# infuse-ai-web: a Dafny model of the client's state logic

infuse-ai-web is a browser client for asking questions about uploaded PDF documents.
This project models the part of it that is not rendering or plain pass-through calls:

- the dashboard's **upload ledger** (`src/pages/dashboard/Dashboard.tsx`): the file
  list, the optimistic placeholder row shown while an upload runs, marking a failed
  upload, the refresh from the server listing, the sequential upload loop with its
  `uploading` flag, and the delete dialog with its three ways to close (cancel, confirm,
  dismiss);
- the chat page's **transcript** (`src/pages/chat/Chat.tsx`): the history records
  sorted stably by time and expanded into a question message and an answer message
  each, with the `q-<index>` id fallback; the page's file list; the submit guard; the
  ask call and the history refetch it triggers;
- the message list (`src/pages/chat/ChatMessages.tsx`): the loop that **pairs** each
  question with the answer right after it, the pair keys, and the **answer formatting**
  (numbered list, headline or paragraphs);
- the input row (`src/pages/chat/ChatInput.tsx`): the Enter key handler and the
  `disabled` tests of the field and the send button;
- the history page (`src/pages/chatHistory/ChatHistory.tsx`): **grouping by day**,
  newest day first, and the two delete handlers with their `deleting` marker.

Modules, leaves first: `Common` (Option, Fetch), `Text` (JavaScript `trim`, `split`,
the `\d+.` marker, whitespace), `StableSort` (a stable sort by an integer key, as
`Array.prototype.sort` is), `Transcript`, `Pairing`, `AnswerFormat`, `ChatInput`,
`UploadLedger`, `ChatPage`, `History`.

The outcome of every server call is a parameter: `bool` for calls without a result,
`Fetch<T>` (`Fetched(value)` or `FetchFailed`) for the listing. The placeholder id,
the clock and the random suffix are one input, `Attempt.tempId`, with the upload time
`Attempt.startedAt`. Timestamps are integers (milliseconds), and the calendar day of
a timestamp is given by the parameter `dayOf`, a larger day index being a later day.
React state updates become pure functions from one state record to the next.

Behaviour of the code a reader may not expect, which the model follows as written:

- A failed delete on the dashboard is swallowed by an empty `catch`: the dialog closes
  and the list is untouched (`UploadLedger.ConfirmDelete`); the caller never sees it.
- Within a day bucket the history page keeps the order the server sent; it does not
  sort by time (`History.OnDay`).
- The question is sent as typed, untrimmed; only the blank test trims
  (`ChatPage.Submit`).
- Only the first file's id is sent, whichever file the user has in mind
  (`ChatPage.Submit`).

## Model

| member | source | states |
|---|---|---|
| UploadLedger.Refresh | src/pages/dashboard/Dashboard.tsx:29-44 | a fetched listing becomes the whole list in listing order with id, name, size (missing reads 0) and upload date mapped, every row Ready without progress; a failed listing empties the list |
| UploadLedger.Mount | src/pages/dashboard/Dashboard.tsx:23-48 | the dashboard opens with the refreshed listing, not uploading, with no delete dialog and no target |
| UploadLedger.Optimistic | src/pages/dashboard/Dashboard.tsx:56-67 | the placeholder is appended with the temp id, the file's name and size, the start time, status Processing and progress 0; every earlier row stays where it was |
| UploadLedger.MarkFailed | src/pages/dashboard/Dashboard.tsx:73-80 | rows with the temp id turn to Error and keep all other fields; every other row is unchanged |
| UploadLedger.UploadFailureMarksOnlyPlaceholder | src/pages/dashboard/Dashboard.tsx:56-81 | `UploadOne`: a failed upload with a fresh temp id leaves the list as it was plus one row, the placeholder in Error with progress 0 |
| UploadLedger.UploadSuccessIsRefresh | src/pages/dashboard/Dashboard.tsx:69-72 | `UploadOne`: a successful upload ends in the refreshed listing whatever was there before; the placeholder survives only if the server lists that id; a failed refresh empties the list |
| UploadLedger.LastSuccessDecides | src/pages/dashboard/Dashboard.tsx:54-82 | `UploadAll`, the loop over the selection: when the last upload of a selection succeeds the list is exactly that upload's refreshed listing |
| UploadLedger.FailedRows | src/pages/dashboard/Dashboard.tsx:73-80 | the failed rows of a selection, one per attempt, in attempt order |
| UploadLedger.AllFailuresAppend | src/pages/dashboard/Dashboard.tsx:54-82 | a selection whose uploads all fail, with distinct fresh temp ids, appends one Error row per file in selection order and changes nothing else |
| UploadLedger.TraceExtend | src/pages/dashboard/Dashboard.tsx:54-82 | the snapshots of the loop extend file by file: placeholder inserted, then settled |
| UploadLedger.HandleFileUpload | src/pages/dashboard/Dashboard.tsx:50-84 | no selection changes nothing; otherwise files are uploaded one after the other, every intermediate snapshot is the starting ledger with `uploading` up and only its file list changed (the dialog and its target untouched), and the end state is the loop's result with `uploading` down |
| UploadLedger.RequestDelete | src/pages/dashboard/Dashboard.tsx:102-105 | the target is remembered and the dialog opens; the list and the `uploading` flag are untouched |
| UploadLedger.CancelDelete | src/pages/dashboard/Dashboard.tsx:119-122 | the dialog closes and the target is forgotten; the list and the `uploading` flag are untouched |
| UploadLedger.DismissDeleteDialog | src/pages/dashboard/Dashboard.tsx:262 | dismissing the dialog itself (Escape, overlay, close button) only closes it: the target stays remembered, and the list and the `uploading` flag are untouched |
| UploadLedger.DismissedTargetIsReplaced | src/pages/dashboard/Dashboard.tsx:102-117 | a target left behind by a dismissal is replaced when a delete is requested again, and the confirmation then behaves as if the dismissal had not happened |
| UploadLedger.RemoveId | src/pages/dashboard/Dashboard.tsx:111 | exactly the rows without the id remain, each as many times as before, in their order; an absent id changes nothing |
| UploadLedger.ConfirmDelete | src/pages/dashboard/Dashboard.tsx:107-117 | no target or an empty target changes nothing; a confirmed delete drops the target's rows and keeps every other row, duplicates included, in order; a failed one keeps the list; both close the dialog and forget the target |
| UploadLedger.DeleteRoundTrip | src/pages/dashboard/Dashboard.tsx:102-117 | asking to delete a row and confirming with the server agreeing removes every row with that id and keeps every other row |
| StableSort.SortBy | src/pages/chat/Chat.tsx:75 | the sorted records are ordered by time and are a permutation of the input |
| StableSort.SortByStable | src/pages/chat/Chat.tsx:75 | records with equal timestamps keep their input order |
| StableSort.SortByUnique | src/pages/chat/Chat.tsx:75 | a sequence ordered by time with each timestamp's records in input order is the sorted result: sortedness and stability determine it |
| Transcript.ExpandAt | src/pages/chat/Chat.tsx:76-90 | record `k` becomes messages `2k` (question) and `2k+1` (answer) with index `k` |
| Transcript.ExpandCons | src/pages/chat/Chat.tsx:76-90 | the expansion is the first record's two messages followed by the expansion of the rest with the index shifted by one |
| Transcript.TranscriptShape | src/pages/chat/Chat.tsx:73-90 | M records give 2M messages; pair `k` is the `k`-th record in time order, ids `<stem>-q`/`<stem>-a` with the stem falling back to `q-k`, same time, sources on the answer only |
| Text.NatToStringRoundTrip | src/pages/chat/Chat.tsx:78 | the index printed into the `q-<idx>` fallback reads back as the index, with no leading zero |
| Transcript.TranscriptOrdered | src/pages/chat/Chat.tsx:75-90 | the transcript's timestamps never decrease |
| Text.Trim | src/pages/chat/ChatInput.tsx:28 | the result is the input cut at the first and last non-whitespace character (ECMAScript whitespace) |
| Text.TrimUnique | src/pages/chat/ChatInput.tsx:28 | any such cut is the trimmed string |
| Text.BlankIffAllSpace | src/pages/chat/Chat.tsx:113 | the trimmed string is empty exactly when every character is whitespace |
| Text.Split | src/pages/chat/ChatMessages.tsx:99 | at least one piece, no piece holds the separator, and joining the pieces with it gives the input back |
| Text.StripNumberMarker | src/pages/chat/ChatMessages.tsx:104 | a line opening with `<digits>.` loses the marker and the whitespace after it; any other line is unchanged |
| Pairing.PairUp | src/pages/chat/ChatMessages.tsx:50-66 | the grouping has no more groups than there are messages, and at least one group when there is a message |
| Pairing.PairUpFlattens | src/pages/chat/ChatMessages.tsx:50-66 | the groups flatten back to the messages: nothing dropped, duplicated or moved |
| Pairing.PairUpWellGrouped | src/pages/chat/ChatMessages.tsx:54-65 | every pair is a user message then an assistant message, and a user message followed by an assistant message is never left single |
| Pairing.PairUpUnique | src/pages/chat/ChatMessages.tsx:50-66 | any grouping of the messages into well-formed, greedy groups is the one the loop builds |
| Pairing.PairMessages | src/pages/chat/ChatMessages.tsx:50-66 | the loop with its two strides builds the grouping, which flattens to the input and has no more groups than messages |
| Pairing.AlternatingPairsUp | src/pages/chat/ChatMessages.tsx:50-66 | a strictly alternating transcript of 2M messages forms exactly M pairs, pair `k` being messages `2k` and `2k+1` |
| Pairing.TrailingQuestionIsSingle | src/pages/chat/ChatMessages.tsx:62-65 | a question still waiting at the end of an alternating transcript is one single group after the pairs |
| Pairing.TranscriptAlternates | src/pages/chat/Chat.tsx:76-90 | the derived transcript alternates question, answer, question, answer |
| Pairing.TranscriptPairs | src/pages/chat/ChatMessages.tsx:50-66 | the transcript of M records groups into exactly M pairs, pair `k` holding the `k`-th record's question and answer |
| Pairing.TranscriptPairKeys | src/pages/chat/ChatMessages.tsx:67-70 | `PairKey`, the React key of a group: the key of pair `k` is `<stem>-q-<stem>-a`, the stem being the message id or `q-k` |
| AnswerFormat.ItemLines | src/pages/chat/ChatMessages.tsx:99 | the kept lines are exactly the lines whose trimmed text opens with a marker, each as many times as in the input, in their order |
| AnswerFormat.Format | src/pages/chat/ChatMessages.tsx:97-118 | a list exactly when the trimmed answer passes the guard, its items the stripped item lines and never none; otherwise a headline exactly when shorter than 120 with no line break; otherwise one paragraph per line |
| AnswerFormat.NumberedGuardYieldsList | src/pages/chat/ChatMessages.tsx:98-100 | whenever the guard passes some line is an item line, so the `lines.length > 0` test never sends a guarded answer on to the other branches |
| AnswerFormat.ParagraphsRejoin | src/pages/chat/ChatMessages.tsx:113-118 | in paragraph mode the lines rejoined with line breaks are the trimmed answer, which is long or holds a line break |
| AnswerFormat.IndentedItemKeepsMarker | src/pages/chat/ChatMessages.tsx:99-104 | an item line indented by whitespace is kept by the filter but shown with its marker |
| ChatInput.OnKeyDown | src/pages/chat/ChatInput.tsx:25-31 | a key other than Enter, or Shift+Enter, keeps its default action; Enter submits exactly when no ask is pending and the input is not blank, and is otherwise only suppressed |
| ChatInput.ShiftEnterNeverSubmits | src/pages/chat/ChatInput.tsx:26 | Enter with Shift never submits, whatever the state |
| ChatInput.EnterAgreesWithSendButton | src/pages/chat/ChatInput.tsx:25-43 | Enter in the field submits exactly when the send button is enabled (`SendDisabled`, the button's test) |
| ChatInput.ButtonDisabledWhenFieldIs | src/pages/chat/ChatInput.tsx:39-43 | `InputDisabled` (the field's test) implies `SendDisabled` (the button's test), and an enabled button implies a non-blank input |
| ChatPage.ChatFiles | src/pages/chat/Chat.tsx:56-63 | one file per listing entry, in order, with its id and name; no files when the listing fails |
| ChatPage.ChatFilesMatchDashboard | src/pages/chat/Chat.tsx:56-63 | the chat page and the dashboard read the same listing into the same ids and names, in the same order |
| ChatPage.Submit | src/pages/chat/Chat.tsx:110-116 | a request is sent exactly when the input is not blank and a first file with a non-empty id exists, carrying the untrimmed input and that id, and then the field clears and the ask is pending; otherwise nothing changes |
| ChatPage.AskSettled | src/pages/chat/Chat.tsx:95-102 | the pending flag drops and the history becomes stale exactly when it was or the ask succeeded |
| ChatPage.AskRoundTrip | src/pages/chat/Chat.tsx:95-116 | a valid question sent and answered leaves an empty field, nothing pending and a stale history, after exactly one request with the text as typed |
| ChatPage.EnterSendsUnlessFirstIdEmpty | src/pages/chat/ChatInput.tsx:25-31 | an Enter the field accepts sends a request exactly when the first file's id is not empty |
| History.CollectBuckets | src/pages/chatHistory/ChatHistory.tsx:74-81 | the `forEach` yields one bucket per day, no day twice, each bucket holding exactly its day's records in input order and none empty |
| History.GroupByDateSpec | src/pages/chatHistory/ChatHistory.tsx:73-85 | `GroupByDate`: the grouping buckets the records exactly and orders the days strictly newest first |
| History.GroupByDateUnique | src/pages/chatHistory/ChatHistory.tsx:73-85 | any exact bucketing with strictly descending days is the grouping shown |
| History.DistinctDaysPermutation | src/pages/chatHistory/ChatHistory.tsx:82-84 | sorting the buckets keeps their days distinct |
| History.DeleteMessage | src/pages/chatHistory/ChatHistory.tsx:35-60 | while in flight the id is marked and the call pending, nothing else changing; afterwards nothing is marked, the history is stale exactly when it was or the delete succeeded, and a failure is rethrown |
| History.DeleteAll | src/pages/chatHistory/ChatHistory.tsx:42-70 | the dialog closes and `"all"` is marked while in flight, nothing else changing; afterwards nothing is marked, stale exactly when it was or the delete succeeded, a failure rethrown |
| History.WhileDeletingOne | src/pages/chatHistory/ChatHistory.tsx:53-253 | while one message is deleted every delete button is off, and Clear All is off only with its own call pending or when the message id is `"all"` |
| History.WhileDeletingAll | src/pages/chatHistory/ChatHistory.tsx:62-253 | while everything is deleted Clear All is off, but a message's delete button is off only with a single delete pending or when its id is `"all"` |
| History.RunDeletesSettles | src/pages/chatHistory/ChatHistory.tsx:35-70 | awaited deletes from an idle page leave it idle, the history stale exactly when it was or some delete succeeded, and the dialog closed exactly when some delete was a Clear All |
| History.StaleStays | src/pages/chatHistory/ChatHistory.tsx:35-47 | once the history is stale no run of deletes makes it fresh |

## Left out

- `formatFileSize`, the date and time display, and all markup, scrolling, navigation,
  drag-and-drop highlighting and theme state: these are presentation.
- Parsing of timestamp strings, time zones and `toLocaleDateString`: timestamps are
  integers and the day is the parameter `dayOf`. Invalid dates (`NaN`) are not modelled.
- The ordering of day buckets goes through the localized date string parsed back by
  `new Date`. The model compares day indices directly, assuming the round trip
  preserves the calendar order.
- Two different localized date strings that parse to the same instant would sort
  with a zero difference in the source; distinct day indices cannot tie.
- `AnswerFormat.Format`: JavaScript's `length` counts UTF-16 code units; the model
  counts characters, so the 120 bound differs for characters outside the Basic
  Multilingual Plane.
- The service layer, authentication, axios, the streaming ask and the sidebar: they
  are calls into code outside this model.
- React Query internals: caching and retries. Invalidation is modelled as a `stale`
  flag. A failed refetch keeps the previous data, for the history and for the files
  query alike; this is not modelled.
- The shape mismatch under the shared `["chatHistory"]` query key: the chat page
  (Chat.tsx:71) caches `ChatMessage[]` under it and the history page
  (ChatHistory.tsx:30) caches `QAItem[]`. After moving from the history page to the
  chat page, the cached `QAItem[]` is rendered until the refetch ends; those items have
  no `id` or `role`, so every message is a single with the key `user-<index>-ai-<index>`.
  In the other direction the history page's delete button receives an undefined
  `messageId`. The model assumes each page reads its own shape.
- ChatPage.ChatFiles: "no files when the listing fails" holds only when nothing was fetched
  before; a failed refetch keeps the files of the last successful one.
- The server-side effect of a delete, an upload or an ask: only the outcome reaches
  the model.
- The `user-<index>` fallback of the pair key: within the model every message has a
  string id, because each page is assumed to read its own shape (see the shared-key
  line above), so the fallback does not apply (`Pairing.PairKey`).
- The `status: "ready"` of the chat page's files: a constant shown only by the sidebar
  badge, which is presentation.
- Concurrent handlers on the history page share one `deleting` slot. The model runs
  handlers one after the other (`History.RunDeletes`), so an interleaving in which one
  handler's `finally` clears another's marker is not modelled.
- Opening and cancelling the Clear All confirmation dialog: two plain setters.
- UploadLedger.HandleFileUpload: modelled for a handler that runs alone, with nothing else touching
  the ledger while it runs. In the page three things can interleave with it, and the
  contract's unchanged delete dialog and its file lists do not cover them: (1) two
  overlapping selections share the `uploading` flag, and the first to finish lowers it
  while the other still runs; (2) the trash button stays enabled during uploads, so the
  delete dialog can be opened, cancelled or confirmed mid-loop, removing rows; (3) the
  mount-time `fetchFiles` can resolve after an early placeholder was inserted and
  replace the list, placeholder included.

=== FILE: answer_format.dfy ===
/** How the message list renders an assistant answer: as a numbered list when the
    trimmed answer looks numbered and some line carries a `<digits>.` marker, as one
    headline when it is short and has a single line, and as one paragraph per line
    otherwise. */
module AnswerFormat {
  import opened Text
  import opened Common

  datatype Rendering =
    | NumberedList(items: seq<string>)
    | Headline(text: string)
    | Paragraphs(lines: seq<string>)

  /** The guard of the list branch: the answer opens with a marker, or some line after the
      first begins with `1.`. */
  predicate LooksNumbered(answer: string) {
    StartsWithNumberMarker(answer) || Contains(answer, "\n1.")
  }

  /** A line that the list branch keeps: its trimmed text opens with a marker. */
  predicate IsItemLine(line: string) {
    StartsWithNumberMarker(Trim(line))
  }

  /** The `filter` of the list branch: the item lines, in order, untrimmed. */
  function ItemLines(lines: seq<string>): (r: seq<string>)
    ensures forall l :: l in r <==> l in lines && IsItemLine(l)
    ensures forall l :: multiset(r)[l] == if IsItemLine(l) then multiset(lines)[l] else 0
    ensures SubsequenceOf(r, lines)
  {
    if lines == [] then []
    else
      assert lines == [lines[0]] + lines[1..];
      if IsItemLine(lines[0]) then [lines[0]] + ItemLines(lines[1..])
      else ItemLines(lines[1..])
  }

  /** The list items: each kept line with its leading marker and the whitespace after it
      removed. The marker is stripped from the untrimmed line. */
  function Items(lines: seq<string>): (r: seq<string>)
    ensures |r| == |lines|
    ensures forall i :: 0 <= i < |r| ==> r[i] == StripNumberMarker(lines[i])
  {
    seq(|lines|, i requires 0 <= i < |lines| => StripNumberMarker(lines[i]))
  }

  /** The rendering of an assistant message's content. JavaScript's `length` counts
      UTF-16 code units; here it counts characters. */
  function Format(content: string): (r: Rendering)
    ensures r.NumberedList? <==> LooksNumbered(Trim(content))
    ensures r.NumberedList? ==> r.items == Items(ItemLines(Split(Trim(content), '\n'))) && |r.items| >= 1
    ensures r.Headline? <==> !r.NumberedList? && |Trim(content)| < 120 && '\n' !in Trim(content)
    ensures r.Headline? ==> r.text == Trim(content)
    ensures r.Paragraphs? ==> r.lines == Split(Trim(content), '\n')
  {
    var answer := Trim(content);
    var lines := ItemLines(Split(answer, '\n'));
    NumberedGuardYieldsList(answer);
    if LooksNumbered(answer) && lines != [] then NumberedList(Items(lines))
    else if |answer| < 120 && '\n' !in answer then Headline(answer)
    else Paragraphs(Split(answer, '\n'))
  }

  /** The line test of the filter agrees with the guard's first test: when the answer
      opens with a marker, its first line is an item line. */
  lemma FirstLineIsItem(answer: string)
    requires StartsWithNumberMarker(answer)
    ensures IsItemLine(Split(answer, '\n')[0])
  {
    var n := LeadingDigits(answer);
    var j := IndexOf(answer, '\n');
    assert j > n;
    SplitHead(answer, '\n');
    var p := answer[..j];
    assert p[..n + 1] == answer[..n + 1];
    assert IsDigit(p[0]) && p[n] == '.';
    TrimKeepsPrefix(p, n + 1);
    MarkerByPrefix(answer, Trim(p));
  }

  /** A line that opens with `1.` is an item line. */
  lemma OneDotIsItem(p: string)
    requires |p| >= 2 && p[0] == '1' && p[1] == '.'
    ensures IsItemLine(p)
  {
    TrimKeepsPrefix(p, 2);
    var marker := "1.";
    assert LeadingDigits(marker) == 1;
    assert Trim(p)[..2] == marker[..2];
    MarkerByPrefix(marker, Trim(p));
  }

  /** A line that follows a line break and begins with `1.` is an item line. */
  lemma LineAfterBreakIsItem(answer: string, i: nat)
    requires i + 3 <= |answer| && answer[i] == '\n' && answer[i + 1] == '1' && answer[i + 2] == '.'
    ensures Split(answer[i + 1..], '\n')[0] in Split(answer, '\n')
    ensures IsItemLine(Split(answer[i + 1..], '\n')[0])
  {
    SplitAfterSeparator(answer, '\n', i);
    var tail := answer[i + 1..];
    assert tail[0] == '1' && tail[1] == '.';
    SplitHead(tail, '\n');
    var j := IndexOf(tail, '\n');
    var p := tail[..j];
    assert j >= 2 && p[0] == '1' && p[1] == '.';
    OneDotIsItem(p);
  }

  /** The list branch never comes out empty: whenever the guard passes, some line of the
      answer is an item line. */
  lemma NumberedGuardYieldsList(answer: string)
    ensures LooksNumbered(answer) ==> ItemLines(Split(answer, '\n')) != []
  {
    var pieces := Split(answer, '\n');
    if StartsWithNumberMarker(answer) {
      FirstLineIsItem(answer);
      assert pieces[0] in pieces;
    } else if Contains(answer, "\n1.") {
      var i :| 0 <= i <= |answer| && "\n1." <= answer[i..];
      var marker := "\n1.";
      assert marker[0] == answer[i..][0] && marker[1] == answer[i..][1] && marker[2] == answer[i..][2];
      LineAfterBreakIsItem(answer, i);
    }
  }

  /** Paragraph mode shows every character of the trimmed answer: the lines rejoined with
      line breaks are the answer itself. */
  lemma ParagraphsRejoin(content: string)
    requires Format(content).Paragraphs?
    ensures Join(Format(content).lines, '\n') == Trim(content)
    ensures |Trim(content)| >= 120 || '\n' in Trim(content)
  {
  }

  /** The stripping works on the untrimmed line, so an item line indented by whitespace
      keeps its marker: `  2. x` is shown as `  2. x`. */
  lemma IndentedItemKeepsMarker(line: string)
    requires |line| > 0 && IsSpace(line[0])
    ensures StripNumberMarker(line) == line
  {
  }
}

=== FILE: chat_input.dfy ===
/** The chat page's input row: a text field and a send button inside one form. Enter
    without Shift submits the form through the key handler, and both controls switch
    themselves off while an answer is pending or no file exists. */
module ChatInput {
  import opened Text

  /** What one key press in the field does. `Ignored`: the key keeps its default action;
      `Suppressed`: the default action is cancelled and nothing is sent; `Submitted`:
      the default action is cancelled and the form's submit handler runs. */
  datatype KeyEffect = Ignored | Suppressed | Submitted

  /** The `disabled` test of the text field. */
  predicate InputDisabled(askPending: bool, hasFiles: bool) {
    askPending || !hasFiles
  }

  /** The `disabled` test of the send button: the field's test, plus a blank input. */
  predicate SendDisabled(askPending: bool, input: string, hasFiles: bool) {
    askPending || IsBlank(input) || !hasFiles
  }

  /** The field's `onKeyDown` handler. */
  function OnKeyDown(key: string, shift: bool, askPending: bool, input: string): (r: KeyEffect)
    ensures r == Ignored <==> key != "Enter" || shift
    ensures r == Submitted <==> key == "Enter" && !shift && !askPending && !AllSpace(input)
  {
    BlankIffAllSpace(input);
    if key == "Enter" && !shift then
      if !askPending && !IsBlank(input) then Submitted else Suppressed
    else Ignored
  }

  /** A key press as the page sees it: a disabled field receives no key events. */
  function KeyPress(key: string, shift: bool, askPending: bool, hasFiles: bool, input: string): KeyEffect {
    if InputDisabled(askPending, hasFiles) then Ignored else OnKeyDown(key, shift, askPending, input)
  }

  /** Shift+Enter never sends, whatever the state. */
  lemma ShiftEnterNeverSubmits(askPending: bool, hasFiles: bool, input: string)
    ensures KeyPress("Enter", true, askPending, hasFiles, input) == Ignored
  {
  }

  /** The two ways to send agree: Enter in the field sends exactly when the send button
      is enabled. */
  lemma EnterAgreesWithSendButton(askPending: bool, hasFiles: bool, input: string)
    ensures KeyPress("Enter", false, askPending, hasFiles, input) == Submitted
        <==> !SendDisabled(askPending, input, hasFiles)
  {
  }

  /** Whenever the field is disabled the button is too, and an enabled button implies a
      field with some non-space character. */
  lemma ButtonDisabledWhenFieldIs(askPending: bool, hasFiles: bool, input: string)
    ensures InputDisabled(askPending, hasFiles) ==> SendDisabled(askPending, input, hasFiles)
    ensures !SendDisabled(askPending, input, hasFiles) ==> !AllSpace(input)
  {
    BlankIffAllSpace(input);
  }
}

=== FILE: chat_page.dfy ===
/** The chat page's own state: its view of the file listing, the input text, the pending
    flag of the ask call, and whether the history query has been told to refetch. */
module ChatPage {
  import opened Common
  import opened Text
  import UploadLedger
  import ChatInput

  /** A file as the chat page keeps it; every such file is shown as ready. */
  datatype ChatFile = ChatFile(id: string, name: string)

  /** The payload of one ask call: the input text as typed, and the file it is about. */
  datatype AskRequest = AskRequest(question: string, fileId: string)

  datatype ChatSession = ChatSession(input: string, askPending: bool, historyStale: bool)

  /** The state after a submit, and the ask call it started, if any. */
  datatype Submission = Submission(session: ChatSession, request: Option<AskRequest>)

  /** The files query: one file per listing entry, in listing order, keeping id and name;
      a failed listing leaves the page with no files. */
  function ChatFiles(listing: Fetch<seq<UploadLedger.ListedFile>>): (r: seq<ChatFile>)
    ensures listing.FetchFailed? ==> r == []
    ensures listing.Fetched? ==> |r| == |listing.value|
    ensures listing.Fetched? ==> forall i :: 0 <= i < |r| ==>
      r[i].id == listing.value[i].fileId && r[i].name == listing.value[i].fileName
  {
    match listing
    case FetchFailed => []
    case Fetched(fs) => seq(|fs|, i requires 0 <= i < |fs| => ChatFile(fs[i].fileId, fs[i].fileName))
  }

  /** The chat page and the dashboard read the same listing into the same files, in the
      same order, under the same ids and names. */
  lemma ChatFilesMatchDashboard(listing: Fetch<seq<UploadLedger.ListedFile>>)
    ensures |ChatFiles(listing)| == |UploadLedger.Refresh(listing)|
    ensures forall i :: 0 <= i < |ChatFiles(listing)| ==>
      && ChatFiles(listing)[i].id == UploadLedger.Refresh(listing)[i].id
      && ChatFiles(listing)[i].name == UploadLedger.Refresh(listing)[i].name
  {
  }

  /** The id of the file a question is asked about: the first file's, when there is one. */
  function FirstFileId(files: seq<ChatFile>): Option<string> {
    if |files| > 0 then Some(files[0].id) else None
  }

  /** The form's submit handler. A blank input, no file, or a first file with an empty id
      sends nothing and changes nothing. Otherwise the input is sent as typed (not
      trimmed) with the first file's id, the field is cleared and the ask is pending. The
      handler itself does not look at the pending flag. */
  function Submit(s: ChatSession, files: seq<ChatFile>): (r: Submission)
    ensures r.request.Some? <==> !AllSpace(s.input) && |files| > 0 && files[0].id != ""
    ensures r.request.None? ==> r.session == s
    ensures r.request.Some? ==>
      && r.request.value == AskRequest(s.input, files[0].id)
      && r.session == ChatSession("", true, s.historyStale)
  {
    BlankIffAllSpace(s.input);
    var fileId := FirstFileId(files);
    if IsBlank(s.input) || fileId.None? || fileId.value == "" then Submission(s, None)
    else Submission(s.(input := "", askPending := true), Some(AskRequest(s.input, fileId.value)))
  }

  /** The ask call settles: the pending flag drops, and a success marks the history for a
      refetch; a failure leaves the history as it was. */
  function AskSettled(s: ChatSession, ok: bool): (r: ChatSession)
    ensures !r.askPending && r.input == s.input
    ensures r.historyStale <==> s.historyStale || ok
  {
    s.(askPending := false, historyStale := s.historyStale || ok)
  }

  /** A question sent and answered: the field is empty, nothing is pending, and the
      history will be refetched; exactly one request left, carrying the text as typed. */
  lemma AskRoundTrip(s: ChatSession, files: seq<ChatFile>)
    requires !AllSpace(s.input) && |files| > 0 && files[0].id != ""
    ensures var sub := Submit(s, files);
      && sub.request == Some(AskRequest(s.input, files[0].id))
      && AskSettled(sub.session, true) == ChatSession("", false, true)
  {
  }

  /** Pressing Enter in an enabled field sends a request exactly when the first file has
      a non-empty id: the key handler already rules out a blank input and a pending ask. */
  lemma EnterSendsUnlessFirstIdEmpty(s: ChatSession, files: seq<ChatFile>)
    requires ChatInput.KeyPress("Enter", false, s.askPending, |files| > 0, s.input) == ChatInput.Submitted
    ensures !s.askPending && |files| > 0
    ensures Submit(s, files).request.Some? <==> files[0].id != ""
  {
    BlankIffAllSpace(s.input);
  }
}

=== FILE: common.dfy ===
/** Small value types shared by every component of the client model. */
module Common {

  /** A value that may be absent: JavaScript's `undefined`/`null` for an optional field. */
  datatype Option<+T> = None | Some(value: T)

  /** The outcome of a remote read: either the payload the server returned or an opaque
      failure. The client never inspects the kind of failure, only that one happened. */
  datatype Fetch<+T> = Fetched(value: T) | FetchFailed

  /** True when `a` is `b` with some elements deleted and the rest kept in their order. */
  ghost predicate SubsequenceOf<T>(a: seq<T>, b: seq<T>)
    decreases |b|
  {
    if a == [] then true
    else if b == [] then false
    else if a[0] == b[0] then SubsequenceOf(a[1..], b[1..])
    else SubsequenceOf(a, b[1..])
  }

  /** Sequence identities used by several proofs. They are stated over a type parameter
      so the solver instantiates them without unfolding the element type. */
  lemma AppendEmpty<T>(a: seq<T>)
    ensures a + [] == a
  {
  }

  lemma AppendAssoc<T>(a: seq<T>, b: seq<T>, c: seq<T>)
    ensures (a + b) + c == a + (b + c)
  {
  }

  lemma SnocLast<T>(s: seq<T>)
    requires s != []
    ensures s[..|s| - 1] + [s[|s| - 1]] == s
  {
  }

  lemma Regroup<T>(gs: seq<T>, g: T, rest: seq<T>, whole: seq<T>)
    requires gs + ([g] + rest) == whole
    ensures (gs + [g]) + rest == whole
  {
    assert gs + ([g] + rest) == (gs + [g]) + rest;
  }

  lemma CancelPrefix<T>(h: seq<T>, x: seq<T>, y: seq<T>)
    requires h + x == h + y
    ensures x == y
  {
    assert x == (h + x)[|h|..];
    assert y == (h + y)[|h|..];
  }
}

=== FILE: history.dfy ===
/** The history page: the stored exchanges grouped into one bucket per calendar day,
    newest day first, and the two delete handlers with their `deleting` marker.

    The day of an exchange is `new Date(timestamp).toLocaleDateString()`, a string that
    the page later parses back to order the buckets. Here the day is a number given by
    the parameter `dayOf` (from the timestamp in milliseconds to a day index), and a
    larger index is a later day. */
module History {
  import opened Common
  import opened StableSort
  import Transcript

  type QAItem = Transcript.QAItem

  datatype DayGroup = DayGroup(day: int, items: seq<QAItem>)

  function DayOfItem(x: QAItem, dayOf: int -> int): int {
    dayOf(x.timestamp)
  }

  /** The reference bucket: the exchanges of day `d`, in input order. */
  function OnDay(items: seq<QAItem>, dayOf: int -> int, d: int): seq<QAItem>
    decreases |items|
  {
    if items == [] then []
    else
      var n := |items| - 1;
      OnDay(items[..n], dayOf, d) + (if DayOfItem(items[n], dayOf) == d then [items[n]] else [])
  }

  /** What the reference bucket holds. */
  lemma {:induction false} OnDayMember(items: seq<QAItem>, dayOf: int -> int, d: int, y: QAItem)
    ensures y in OnDay(items, dayOf, d) <==> y in items && DayOfItem(y, dayOf) == d
    decreases |items|
  {
    if items != [] {
      var n := |items| - 1;
      OnDayMember(items[..n], dayOf, d, y);
      assert items == items[..n] + [items[n]];
    }
  }

  /** The bucket of `d` after one more exchange `x`. */
  lemma OnDaySnoc(items: seq<QAItem>, x: QAItem, dayOf: int -> int, d: int)
    ensures OnDay(items + [x], dayOf, d) == OnDay(items, dayOf, d) + (if DayOfItem(x, dayOf) == d then [x] else [])
  {
    assert (items + [x])[..|items|] == items;
  }

  predicate HasDay(groups: seq<DayGroup>, d: int) {
    exists g :: g in groups && g.day == d
  }

  predicate DistinctDays(groups: seq<DayGroup>) {
    forall i, j :: 0 <= i < j < |groups| ==> groups[i].day != groups[j].day
  }

  /** `groups` buckets `items` exactly: no day twice, every bucket holds exactly its day's
      exchanges in input order and is not empty, and every exchange's day has a bucket. */
  ghost predicate Buckets(groups: seq<DayGroup>, items: seq<QAItem>, dayOf: int -> int) {
    && DistinctDays(groups)
    && (forall g :: g in groups ==> g.items == OnDay(items, dayOf, g.day) && g.items != [])
    && (forall k :: 0 <= k < |items| ==> HasDay(groups, DayOfItem(items[k], dayOf)))
  }

  /** The bucket after `x`, of day `d`, has been pushed where it belongs. */
  function Extend(g: DayGroup, x: QAItem, d: int): DayGroup {
    if g.day == d then g.(items := g.items + [x]) else g
  }

  /** One step of the `forEach`: `x` joins the bucket of day `d`, which is created at the
      end when it does not exist yet. */
  function AddItem(groups: seq<DayGroup>, x: QAItem, d: int): seq<DayGroup> {
    seq(|groups|, i requires 0 <= i < |groups| => Extend(groups[i], x, d))
      + (if HasDay(groups, d) then [] else [DayGroup(d, [x])])
  }

  /** The `forEach` over the exchanges, in input order. */
  function Collect(items: seq<QAItem>, dayOf: int -> int): seq<DayGroup>
    decreases |items|
  {
    if items == [] then []
    else
      var n := |items| - 1;
      AddItem(Collect(items[..n], dayOf), items[n], DayOfItem(items[n], dayOf))
  }

  /** The buckets already present keep their day and gain `x` when it is theirs. */
  lemma AddItemKeeps(groups: seq<DayGroup>, items: seq<QAItem>, x: QAItem, dayOf: int -> int, i: nat)
    requires Buckets(groups, items, dayOf) && i < |groups|
    ensures var r := AddItem(groups, x, DayOfItem(x, dayOf));
      && r[i].day == groups[i].day
      && r[i].items == OnDay(items + [x], dayOf, r[i].day) && r[i].items != []
  {
    assert groups[i] in groups;
    OnDaySnoc(items, x, dayOf, groups[i].day);
  }

  /** A new bucket holds just `x`, and its day is new. */
  lemma AddItemNew(groups: seq<DayGroup>, items: seq<QAItem>, x: QAItem, dayOf: int -> int)
    requires Buckets(groups, items, dayOf) && !HasDay(groups, DayOfItem(x, dayOf))
    ensures var d := DayOfItem(x, dayOf);
      var r := AddItem(groups, x, d);
      && |r| == |groups| + 1
      && r[|groups|] == DayGroup(d, [x])
      && [x] == OnDay(items + [x], dayOf, d)
      && forall i :: 0 <= i < |groups| ==> groups[i].day != d
  {
    var d := DayOfItem(x, dayOf);
    OnDaySnoc(items, x, dayOf, d);
    NoBucketNoItems(groups, items, dayOf, d);
    forall i | 0 <= i < |groups| ensures groups[i].day != d {
      assert groups[i] in groups;
    }
  }

  /** Every exchange's day, `x`'s included, still has a bucket. */
  lemma AddItemCovers(groups: seq<DayGroup>, items: seq<QAItem>, x: QAItem, dayOf: int -> int, k: nat)
    requires Buckets(groups, items, dayOf) && k <= |items|
    ensures HasDay(AddItem(groups, x, DayOfItem(x, dayOf)), DayOfItem((items + [x])[k], dayOf))
  {
    var d := DayOfItem(x, dayOf);
    var r := AddItem(groups, x, d);
    var e := DayOfItem((items + [x])[k], dayOf);
    if k < |items| || HasDay(groups, d) {
      if k < |items| { assert (items + [x])[k] == items[k]; }
      var g :| g in groups && g.day == e;
      var i :| 0 <= i < |groups| && groups[i] == g;
      assert r[i] in r;
    } else {
      assert r[|groups|] in r;
    }
  }

  /** Adding one more exchange keeps the buckets exact. */
  lemma AddItemBuckets(groups: seq<DayGroup>, items: seq<QAItem>, x: QAItem, all: seq<QAItem>, dayOf: int -> int)
    requires Buckets(groups, items, dayOf) && all == items + [x]
    ensures Buckets(AddItem(groups, x, DayOfItem(x, dayOf)), all, dayOf)
  {
    var d := DayOfItem(x, dayOf);
    var r := AddItem(groups, x, d);
    forall i | 0 <= i < |groups|
      ensures r[i].day == groups[i].day
      ensures r[i].items == OnDay(all, dayOf, r[i].day) && r[i].items != []
    {
      AddItemKeeps(groups, items, x, dayOf, i);
    }
    if !HasDay(groups, d) {
      AddItemNew(groups, items, x, dayOf);
    }
    forall g | g in r ensures g.items == OnDay(all, dayOf, g.day) && g.items != [] {
      var i :| 0 <= i < |r| && r[i] == g;
    }
    forall k | 0 <= k < |all| ensures HasDay(r, DayOfItem(all[k], dayOf)) {
      AddItemCovers(groups, items, x, dayOf, k);
    }
  }

  /** A day without a bucket has no exchanges. */
  lemma NoBucketNoItems(groups: seq<DayGroup>, items: seq<QAItem>, dayOf: int -> int, d: int)
    requires Buckets(groups, items, dayOf) && !HasDay(groups, d)
    ensures OnDay(items, dayOf, d) == []
  {
    if OnDay(items, dayOf, d) != [] {
      OnDayMember(items, dayOf, d, OnDay(items, dayOf, d)[0]);
    }
  }

  /** The `forEach` produces exact buckets. */
  lemma {:induction false} CollectBuckets(items: seq<QAItem>, dayOf: int -> int)
    ensures Buckets(Collect(items, dayOf), items, dayOf)
    decreases |items|
  {
    if items != [] {
      var n := |items| - 1;
      CollectBuckets(items[..n], dayOf);
      SnocLast(items);
      AddItemBuckets(Collect(items[..n], dayOf), items[..n], items[n], items, dayOf);
    }
  }

  function NegDay(g: DayGroup): int {
    -g.day
  }

  /** `groupByDate`: bucket, then sort the buckets by day, newest first. */
  function GroupByDate(items: seq<QAItem>, dayOf: int -> int): seq<DayGroup> {
    SortBy(Collect(items, dayOf), NegDay)
  }

  /** The history page shows one bucket per day that occurs, newest day first, each
      holding exactly that day's exchanges in input order, and no empty bucket. */
  lemma GroupByDateSpec(items: seq<QAItem>, dayOf: int -> int)
    ensures Buckets(GroupByDate(items, dayOf), items, dayOf)
    ensures Descending(GroupByDate(items, dayOf))
  {
    var gs := Collect(items, dayOf);
    var r := GroupByDate(items, dayOf);
    CollectBuckets(items, dayOf);
    DistinctDaysPermutation(gs, r);
    SameMembers(gs, r);
    forall k | 0 <= k < |items| ensures HasDay(r, DayOfItem(items[k], dayOf)) {
      var g :| g in gs && g.day == DayOfItem(items[k], dayOf);
      assert g in r;
    }
    forall i, j | 0 <= i < j < |r| ensures DayKey(r[i]) > DayKey(r[j]) {
      assert NegDay(r[i]) <= NegDay(r[j]);
    }
  }

  function DayKey(g: DayGroup): int {
    g.day
  }

  /** Days strictly decrease along the sequence. */
  predicate Descending(groups: seq<DayGroup>) {
    StrictlyDown(groups, DayKey)
  }

  /** Two exact bucketings of the same exchanges hold the same buckets. */
  lemma BucketsAgree(a: seq<DayGroup>, b: seq<DayGroup>, items: seq<QAItem>, dayOf: int -> int)
    requires Buckets(a, items, dayOf) && Buckets(b, items, dayOf)
    ensures forall g :: g in a ==> g in b
  {
    forall g | g in a ensures g in b {
      var y := g.items[0];
      OnDayMember(items, dayOf, g.day, y);
      var k :| 0 <= k < |items| && items[k] == y;
      assert HasDay(b, DayOfItem(items[k], dayOf));
      var h :| h in b && h.day == g.day;
      assert h == g;
    }
  }

  predicate StrictlyDown<T>(s: seq<T>, key: T -> int) {
    forall i, j :: 0 <= i < j < |s| ==> key(s[i]) > key(s[j])
  }

  /** Two strictly descending sequences with the same members start alike. */
  lemma DownHeadsAgree<T>(a: seq<T>, b: seq<T>, key: T -> int)
    requires StrictlyDown(a, key) && StrictlyDown(b, key)
    requires a != [] && forall x :: x in a <==> x in b
    ensures b != [] && a[0] == b[0]
  {
    assert a[0] in b;
    var k :| 0 <= k < |b| && b[k] == a[0];
    assert b[0] in a;
    var m :| 0 <= m < |a| && a[m] == b[0];
  }

  /** Dropping an equal head keeps the members equal. */
  lemma DownTailsAgree<T>(a: seq<T>, b: seq<T>, key: T -> int, x: T)
    requires StrictlyDown(a, key) && StrictlyDown(b, key)
    requires a != [] && b != [] && a[0] == b[0] && forall y :: y in a <==> y in b
    ensures x in a[1..] <==> x in b[1..]
  {
    if x in a[1..] {
      var i :| 1 <= i < |a| && a[i] == x;
      assert key(a[0]) > key(a[i]);
      assert x in b;
      var j :| 0 <= j < |b| && b[j] == x;
      assert b[1..][j - 1] == x;
    }
    if x in b[1..] {
      var j :| 1 <= j < |b| && b[j] == x;
      assert key(b[0]) > key(b[j]);
      assert x in a;
      var i :| 0 <= i < |a| && a[i] == x;
      assert a[1..][i - 1] == x;
    }
  }

  /** Two strictly descending sequences with the same members are equal. */
  lemma {:induction false} DownUnique<T>(a: seq<T>, b: seq<T>, key: T -> int)
    requires StrictlyDown(a, key) && StrictlyDown(b, key)
    requires forall x :: x in a <==> x in b
    ensures a == b
    decreases |a|
  {
    if a != [] {
      DownHeadsAgree(a, b, key);
      forall x ensures x in a[1..] <==> x in b[1..] {
        DownTailsAgree(a, b, key, x);
      }
      DownUnique(a[1..], b[1..], key);
      assert a == [a[0]] + a[1..] && b == [b[0]] + b[1..];
    } else if b != [] {
      DownHeadsAgree(b, a, key);
    }
  }

  /** The grouping is determined by what it promises: any descending exact bucketing of
      the exchanges is the one the history page shows. */
  lemma GroupByDateUnique(items: seq<QAItem>, dayOf: int -> int, r: seq<DayGroup>)
    requires Buckets(r, items, dayOf) && Descending(r)
    ensures r == GroupByDate(items, dayOf)
  {
    var shown := GroupByDate(items, dayOf);
    GroupByDateSpec(items, dayOf);
    BucketsAgree(r, shown, items, dayOf);
    BucketsAgree(shown, r, items, dayOf);
    DownUnique(r, shown, DayKey);
  }

  lemma SameMembers<T>(a: seq<T>, b: seq<T>)
    requires multiset(a) == multiset(b)
    ensures forall x :: x in a <==> x in b
  {
    forall x ensures x in a <==> x in b {
      assert x in a <==> x in multiset(a);
      assert x in b <==> x in multiset(b);
    }
  }

  /** Reordering keeps days distinct. */
  lemma DistinctDaysPermutation(a: seq<DayGroup>, b: seq<DayGroup>)
    requires multiset(a) == multiset(b) && DistinctDays(a)
    ensures DistinctDays(b)
  {
    forall i, j | 0 <= i < j < |b| ensures b[i].day != b[j].day {
      if b[i].day == b[j].day {
        assert b[i] in multiset(a) && b[j] in multiset(a);
        var k :| 0 <= k < |a| && a[k] == b[i];
        var l :| 0 <= l < |a| && a[l] == b[j];
        assert k == l;
        CountTwo(b, i, j);
        DistinctCountOne(a, k);
        assert false;
      }
    }
  }

  /** A value at two positions is counted at least twice. */
  lemma CountTwo<T>(s: seq<T>, i: nat, j: nat)
    requires i < j < |s| && s[i] == s[j]
    ensures multiset(s)[s[i]] >= 2
  {
    assert s == s[..j] + [s[j]] + s[j + 1..];
    assert s[i] in s[..j];
    assert multiset(s) == multiset(s[..j]) + multiset{s[j]} + multiset(s[j + 1..]);
  }

  /** With distinct days, each group occurs once. */
  lemma {:induction false} DistinctCountOne(a: seq<DayGroup>, k: nat)
    requires DistinctDays(a) && k < |a|
    ensures multiset(a)[a[k]] == 1
    decreases |a|
  {
    var n := |a| - 1;
    assert a == a[..n] + [a[n]];
    assert multiset(a) == multiset(a[..n]) + multiset{a[n]};
    if k < n {
      DistinctCountOne(a[..n], k);
      assert a[n] != a[k];
    } else {
      assert a[n] !in a[..n] by {
        forall m | 0 <= m < n ensures a[..n][m] != a[n] {
          assert a[m].day != a[n].day;
        }
      }
    }
  }


  /** The page's delete state. `deleting` is the id being deleted, or the marker `"all"`
      while the whole history is; the two pending flags are those of the two delete
      calls; `stale` says the history query has been told to refetch. */
  datatype HistoryView = HistoryView(
    deleting: Option<string>,
    showConfirm: bool,
    onePending: bool,
    allPending: bool,
    stale: bool)

  /** The value `deleting` holds while the whole history is being deleted. */
  const AllMarker: string := "all"

  /** One delete handler from start to end: the view while the call is in flight, the
      view once it has settled, and whether the handler ends by rethrowing the failure. */
  datatype DeleteRun = DeleteRun(during: HistoryView, after: HistoryView, rethrows: bool)

  /** Deleting one message: mark its id, await the call, clear the mark whatever the
      outcome. Only a success tells the history to refetch; a failure leaves the handler
      through `finally` without being caught. */
  function DeleteMessage(v: HistoryView, id: string, ok: bool): (r: DeleteRun)
    ensures r.during.deleting == Some(id) && r.during.onePending
    ensures r.during.showConfirm == v.showConfirm && r.during.allPending == v.allPending
    ensures r.during.stale == v.stale
    ensures r.after.deleting.None? && !r.after.onePending && r.after.allPending == v.allPending
    ensures r.after.stale <==> v.stale || ok
    ensures r.after.showConfirm == v.showConfirm
    ensures r.rethrows <==> !ok
  {
    var during := v.(deleting := Some(id), onePending := true);
    DeleteRun(during, during.(deleting := None, onePending := false, stale := v.stale || ok), !ok)
  }

  /** Deleting everything: close the dialog, mark `"all"`, await the call, clear the
      mark whatever the outcome. */
  function DeleteAll(v: HistoryView, ok: bool): (r: DeleteRun)
    ensures !r.during.showConfirm && r.during.deleting == Some(AllMarker) && r.during.allPending
    ensures r.during.onePending == v.onePending && r.during.stale == v.stale
    ensures !r.after.showConfirm && r.after.deleting.None? && !r.after.allPending
    ensures r.after.onePending == v.onePending
    ensures r.after.stale <==> v.stale || ok
    ensures r.rethrows <==> !ok
  {
    var during := v.(showConfirm := false, deleting := Some(AllMarker), allPending := true);
    DeleteRun(during, during.(deleting := None, allPending := false, stale := v.stale || ok), !ok)
  }

  /** The `disabled` test of the three Clear All buttons. */
  predicate ClearAllDisabled(v: HistoryView) {
    v.deleting == Some(AllMarker) || v.allPending
  }

  /** The `disabled` test of the delete button of the message `id`. */
  predicate DeleteDisabled(v: HistoryView, id: string) {
    v.deleting == Some(id) || v.onePending
  }

  /** While one message is being deleted every message's delete button is off; Clear All
      is off only while the Clear All call is in flight, or if the message's id is the
      marker itself. */
  lemma WhileDeletingOne(v: HistoryView, id: string, ok: bool, other: string)
    ensures DeleteDisabled(DeleteMessage(v, id, ok).during, other)
    ensures ClearAllDisabled(DeleteMessage(v, id, ok).during) <==> v.allPending || id == AllMarker
  {
  }

  /** While everything is being deleted, Clear All is off, but a message's delete button
      stays on unless a single delete is in flight or the message's id is `"all"`. */
  lemma WhileDeletingAll(v: HistoryView, ok: bool, id: string)
    ensures ClearAllDisabled(DeleteAll(v, ok).during)
    ensures DeleteDisabled(DeleteAll(v, ok).during, id) <==> v.onePending || id == AllMarker
  {
  }

  datatype DeleteOp = DeleteOne(id: string, ok: bool) | ClearAll(ok: bool)

  predicate Succeeded(op: DeleteOp) {
    op.ok
  }

  /** One handler run for one operation. */
  function Step(v: HistoryView, op: DeleteOp): DeleteRun {
    match op
    case DeleteOne(id, ok) => DeleteMessage(v, id, ok)
    case ClearAll(ok) => DeleteAll(v, ok)
  }

  /** The view after delete handlers run one after the other, each awaited. */
  function RunDeletes(v: HistoryView, ops: seq<DeleteOp>): HistoryView
    decreases |ops|
  {
    if ops == [] then v else RunDeletes(Step(v, ops[0]).after, ops[1..])
  }

  /** Nothing marked and no delete call in flight. */
  predicate Idle(v: HistoryView) {
    v.deleting.None? && !v.onePending && !v.allPending
  }

  /** Handlers run one after the other from an idle page leave it idle; the history is
      stale exactly when it was already or some delete succeeded; the dialog is closed
      when some delete was a Clear All, and untouched otherwise. */
  lemma {:induction false} RunDeletesSettles(v: HistoryView, ops: seq<DeleteOp>)
    requires Idle(v)
    ensures Idle(RunDeletes(v, ops))
    ensures RunDeletes(v, ops).stale <==> v.stale || exists k :: 0 <= k < |ops| && Succeeded(ops[k])
    ensures RunDeletes(v, ops).showConfirm <==> v.showConfirm && forall k :: 0 <= k < |ops| ==> ops[k].DeleteOne?
    decreases |ops|
  {
    if ops != [] {
      RunDeletesSettles(Step(v, ops[0]).after, ops[1..]);
      forall k | 1 <= k < |ops| ensures ops[1..][k - 1] == ops[k] { }
    }
  }

  /** The invalidation is sticky: once the history is stale no run of deletes makes it
      fresh again. */
  lemma {:induction false} StaleStays(v: HistoryView, ops: seq<DeleteOp>)
    requires v.stale
    ensures RunDeletes(v, ops).stale
    decreases |ops|
  {
    if ops != [] {
      StaleStays(Step(v, ops[0]).after, ops[1..]);
    }
  }
}

=== FILE: ledger.dfy ===
/** The dashboard's upload ledger: the list of files the user sees, an optimistic
    placeholder per selected file, reconciliation with the server's listing, and
    delete-after-confirmation. Every network call is an outcome given as a parameter. */
module UploadLedger {
  import opened Common

  datatype Status = Processing | Ready | Error

  /** One row of the dashboard. `progress` is only ever set on a placeholder. */
  datatype UploadedFile = UploadedFile(
    id: string,
    name: string,
    size: int,
    uploadDate: string,
    status: Status,
    progress: Option<int>)

  /** One entry of the server's file listing; `fileSize` may be missing. */
  datatype ListedFile = ListedFile(
    fileId: string,
    fileName: string,
    fileSize: Option<int>,
    uploadedAt: string)

  /** A file the user picked in the browser. */
  datatype LocalFile = LocalFile(name: string, size: nat)

  /** Everything one round of the upload loop depends on besides the ledger itself: the
      picked file, the placeholder id and clock reading the client generated for it, whether
      the upload call resolved, and what the listing call that follows a successful upload
      returned. */
  datatype Attempt = Attempt(
    file: LocalFile,
    tempId: string,
    startedAt: string,
    uploaded: bool,
    listing: Fetch<seq<ListedFile>>)

  /** The dashboard's state: the file list, the `uploading` flag, and the delete dialog. */
  datatype Ledger = Ledger(
    files: seq<UploadedFile>,
    uploading: bool,
    showDeleteDialog: bool,
    fileToDelete: Option<string>)

  function Ids(files: seq<UploadedFile>): set<string> {
    set f | f in files :: f.id
  }

  /** The row a listing entry becomes; a missing size reads as 0. */
  function FromListing(f: ListedFile): UploadedFile {
    var size := match f.fileSize
      case Some(n) => n
      case None => 0;
    UploadedFile(f.fileId, f.fileName, size, f.uploadedAt, Ready, None)
  }

  /** `fetchFiles`: the whole list is replaced by the mapped listing, in listing order, or
      emptied when the listing call fails. Nothing of the previous list survives. */
  function Refresh(listing: Fetch<seq<ListedFile>>): (r: seq<UploadedFile>)
    ensures listing.FetchFailed? ==> r == []
    ensures listing.Fetched? ==> |r| == |listing.value|
    ensures listing.Fetched? ==> forall i :: 0 <= i < |r| ==>
      var f := listing.value[i];
      && r[i].id == f.fileId && r[i].name == f.fileName && r[i].uploadDate == f.uploadedAt
      && r[i].status == Ready && r[i].progress == None
      && r[i].size == (if f.fileSize.Some? then f.fileSize.value else 0)
    ensures forall f :: f in r ==> f.status == Ready && f.progress == None
  {
    match listing
    case FetchFailed => []
    case Fetched(fs) => seq(|fs|, i requires 0 <= i < |fs| => FromListing(fs[i]))
  }

  /** The dashboard on mount: one refresh of an empty ledger. */
  function Mount(listing: Fetch<seq<ListedFile>>): (r: Ledger)
    ensures r.files == Refresh(listing) && !r.uploading && !r.showDeleteDialog
    ensures r.fileToDelete == None
  {
    Ledger(Refresh(listing), false, false, None)
  }

  function Placeholder(a: Attempt): UploadedFile {
    UploadedFile(a.tempId, a.file.name, a.file.size, a.startedAt, Processing, Some(0))
  }

  /** The optimistic insert: the placeholder goes at the end, nothing before it moves. */
  function Optimistic(files: seq<UploadedFile>, a: Attempt): (r: seq<UploadedFile>)
    ensures |r| == |files| + 1 && r[..|files|] == files
    ensures r[|files|].id == a.tempId && r[|files|].name == a.file.name
    ensures r[|files|].size == a.file.size && r[|files|].uploadDate == a.startedAt
    ensures r[|files|].status == Processing && r[|files|].progress == Some(0)
  {
    files + [Placeholder(a)]
  }

  /** The failure branch: every row whose id is `tempId` becomes `Error`, keeping its
      other fields (the placeholder keeps `progress` 0); every other row is untouched. */
  function MarkFailed(files: seq<UploadedFile>, tempId: string): (r: seq<UploadedFile>)
    ensures |r| == |files|
    ensures forall i :: 0 <= i < |r| && files[i].id == tempId ==> r[i] == files[i].(status := Error)
    ensures forall i :: 0 <= i < |r| && files[i].id != tempId ==> r[i] == files[i]
  {
    if files == [] then []
    else
      var head := if files[0].id == tempId then files[0].(status := Error) else files[0];
      [head] + MarkFailed(files[1..], tempId)
  }

  /** The list while the upload call of `a` is in flight, then after it settles: a
      successful upload is followed by a refresh, a failed one marks the placeholder. */
  function UploadOne(files: seq<UploadedFile>, a: Attempt): seq<UploadedFile> {
    var pending := Optimistic(files, a);
    if a.uploaded then Refresh(a.listing) else MarkFailed(pending, a.tempId)
  }

  /** The upload loop over a selection, one file after the other, in selection order. */
  function UploadAll(files: seq<UploadedFile>, attempts: seq<Attempt>): seq<UploadedFile>
    decreases |attempts|
  {
    if attempts == [] then files
    else UploadOne(UploadAll(files, attempts[..|attempts| - 1]), attempts[|attempts| - 1])
  }

  /** The row a failed upload leaves behind: the placeholder, in `Error`. */
  function FailedRow(a: Attempt): UploadedFile {
    Placeholder(a).(status := Error)
  }

  /** A failed upload with a fresh placeholder id leaves exactly one new row, the
      placeholder in `Error` with its progress 0 kept, after the untouched old rows. */
  lemma UploadFailureMarksOnlyPlaceholder(files: seq<UploadedFile>, a: Attempt)
    requires !a.uploaded && a.tempId !in Ids(files)
    ensures UploadOne(files, a) == files + [FailedRow(a)]
    ensures UploadOne(files, a)[|files|].progress == Some(0)
  {
    var p := Optimistic(files, a);
    var r := UploadOne(files, a);
    var e := files + [FailedRow(a)];
    forall i | 0 <= i < |r| ensures r[i] == e[i] {
      if i < |files| {
        assert p[i] == files[i];
        assert files[i] in files;
      }
    }
  }

  /** A successful upload ends in the refreshed listing whatever was there before: the
      placeholder survives only if the server itself lists a file under that id, and a
      failed refresh leaves the list empty. */
  lemma UploadSuccessIsRefresh(files: seq<UploadedFile>, a: Attempt)
    requires a.uploaded
    ensures UploadOne(files, a) == Refresh(a.listing)
    ensures a.tempId in Ids(UploadOne(files, a)) ==>
      a.listing.Fetched? && exists f :: f in a.listing.value && f.fileId == a.tempId
    ensures a.listing.FetchFailed? ==> UploadOne(files, a) == []
  {
    var r := UploadOne(files, a);
    if a.tempId in Ids(r) {
      var g :| g in r && g.id == a.tempId;
      var i :| 0 <= i < |r| && r[i] == g;
      assert a.listing.value[i] in a.listing.value;
    }
  }

  /** The last file of a selection decides the list when its upload succeeds: the list is
      the refresh that followed it, whatever the earlier files did. */
  lemma LastSuccessDecides(files: seq<UploadedFile>, attempts: seq<Attempt>)
    requires |attempts| > 0 && attempts[|attempts| - 1].uploaded
    ensures UploadAll(files, attempts) == Refresh(attempts[|attempts| - 1].listing)
  {
  }

  /** One failed row per attempt, in attempt order. */
  function FailedRows(attempts: seq<Attempt>): (r: seq<UploadedFile>)
    ensures |r| == |attempts|
    ensures forall k :: 0 <= k < |r| ==> r[k] == FailedRow(attempts[k])
    decreases |attempts|
  {
    if attempts == [] then []
    else
      var n := |attempts| - 1;
      var init := attempts[..n];
      assert forall k :: 0 <= k < n ==> init[k] == attempts[k];
      FailedRows(init) + [FailedRow(attempts[n])]
  }

  /** Placeholder ids distinct from one another and from the list stay absent from the
      list grown by the failed rows of earlier attempts. */
  lemma FreshAmongFailedRows(files: seq<UploadedFile>, attempts: seq<Attempt>, x: Attempt)
    requires x.tempId !in Ids(files)
    requires forall k :: 0 <= k < |attempts| ==> attempts[k].tempId != x.tempId
    ensures x.tempId !in Ids(files + FailedRows(attempts))
  {
  }

  /** Uploads that all fail, with placeholder ids fresh for the list and distinct from one
      another, append one `Error` row per file in selection order and touch nothing else. */
  lemma {:induction false} AllFailuresAppend(files: seq<UploadedFile>, attempts: seq<Attempt>)
    requires forall k :: 0 <= k < |attempts| ==> !attempts[k].uploaded
    requires forall k :: 0 <= k < |attempts| ==> attempts[k].tempId !in Ids(files)
    requires forall k, l :: 0 <= k < l < |attempts| ==> attempts[k].tempId != attempts[l].tempId
    ensures UploadAll(files, attempts) == files + FailedRows(attempts)
    decreases |attempts|
  {
    if attempts != [] {
      var n := |attempts| - 1;
      var init := attempts[..n];
      AllFailuresAppend(files, init);
      var before := files + FailedRows(init);
      FreshAmongFailedRows(files, init, attempts[n]);
      UploadFailureMarksOnlyPlaceholder(before, attempts[n]);
      AppendAssoc(files, FailedRows(init), [FailedRow(attempts[n])]);
    } else {
      AppendEmpty(files);
    }
  }

  /** Unfolding the upload loop by one file. */
  lemma UploadAllStep(files: seq<UploadedFile>, attempts: seq<Attempt>, i: nat)
    requires i < |attempts|
    ensures UploadAll(files, attempts[..i + 1]) == UploadOne(UploadAll(files, attempts[..i]), attempts[i])
  {
    assert attempts[..i + 1][..i] == attempts[..i];
  }

  /** The first `n` files' snapshot pairs: the in-flight list and the settled list. */
  ghost predicate TraceMatches(files: seq<UploadedFile>, attempts: seq<Attempt>, trace: seq<Ledger>, n: nat)
    requires n <= |attempts| && |trace| == 2 * n
  {
    forall k :: 0 <= k < n ==>
      && trace[2 * k].files == Optimistic(UploadAll(files, attempts[..k]), attempts[k])
      && trace[2 * k + 1].files == UploadAll(files, attempts[..k + 1])
  }

  lemma TraceExtend(files: seq<UploadedFile>, attempts: seq<Attempt>, trace: seq<Ledger>, n: nat, p: Ledger, q: Ledger)
    requires n < |attempts| && |trace| == 2 * n && TraceMatches(files, attempts, trace, n)
    requires p.files == Optimistic(UploadAll(files, attempts[..n]), attempts[n])
    requires q.files == UploadAll(files, attempts[..n + 1])
    ensures TraceMatches(files, attempts, trace + [p, q], n + 1)
  {
    var t := trace + [p, q];
    forall k | 0 <= k < n + 1
      ensures && t[2 * k].files == Optimistic(UploadAll(files, attempts[..k]), attempts[k])
              && t[2 * k + 1].files == UploadAll(files, attempts[..k + 1])
    {
      if k < n {
        assert t[2 * k] == trace[2 * k] && t[2 * k + 1] == trace[2 * k + 1];
      }
    }
  }

  /** Every snapshot is `s` with the `uploading` flag up and only the file list changed:
      the delete dialog and its target stay as they were. */
  ghost predicate UploadingThroughout(trace: seq<Ledger>, s: Ledger) {
    forall k :: 0 <= k < |trace| ==> trace[k] == s.(uploading := true, files := trace[k].files)
  }

  lemma UploadingExtend(trace: seq<Ledger>, s: Ledger, p: Ledger, q: Ledger)
    requires UploadingThroughout(trace, s)
    requires p == s.(uploading := true, files := p.files)
    requires q == s.(uploading := true, files := q.files)
    ensures UploadingThroughout(trace + [p, q], s)
  {
  }

  /** `handleFileUpload`. A missing selection changes nothing and never raises the
      `uploading` flag. Otherwise the files are handled one at a time in selection order,
      and the ledger passes through two snapshots per file: while the upload call is in
      flight (placeholder visible) and once it has settled; the flag is up in every
      snapshot and down at the end. */
  method HandleFileUpload(s: Ledger, selection: Option<seq<Attempt>>) returns (r: Ledger, trace: seq<Ledger>)
    ensures selection.None? ==> r == s && trace == []
    ensures selection.Some? ==> r == s.(files := UploadAll(s.files, selection.value), uploading := false)
    ensures selection.Some? ==> |trace| == 2 * |selection.value|
    ensures selection.Some? ==> TraceMatches(s.files, selection.value, trace, |selection.value|)
    ensures UploadingThroughout(trace, s)
  {
    if selection.None? {
      return s, [];
    }
    var attempts := selection.value;
    var cur := s.(uploading := true);
    trace := [];
    var i := 0;
    while i < |attempts|
      invariant 0 <= i <= |attempts|
      invariant cur.files == UploadAll(s.files, attempts[..i])
      invariant cur == s.(uploading := true, files := cur.files)
      invariant |trace| == 2 * i
      invariant TraceMatches(s.files, attempts, trace, i)
      invariant UploadingThroughout(trace, s)
    {
      var a := attempts[i];
      var pending := cur.(files := Optimistic(cur.files, a));
      var settled := cur.(files := UploadOne(cur.files, a));
      UploadAllStep(s.files, attempts, i);
      TraceExtend(s.files, attempts, trace, i, pending, settled);
      UploadingExtend(trace, s, pending, settled);
      trace := trace + [pending, settled];
      cur := settled;
      i := i + 1;
    }
    assert attempts[..i] == attempts;
    r := cur.(uploading := false);
  }

  /** `handleDeleteClick`: remember the target and open the confirmation dialog. */
  function RequestDelete(s: Ledger, id: string): (r: Ledger)
    ensures r.files == s.files && r.showDeleteDialog && r.fileToDelete == Some(id)
    ensures r.uploading == s.uploading
  {
    s.(showDeleteDialog := true, fileToDelete := Some(id))
  }

  /** `cancelDelete`: close the dialog and forget the target; the list is untouched. */
  function CancelDelete(s: Ledger): (r: Ledger)
    ensures r.files == s.files && !r.showDeleteDialog && r.fileToDelete == None
    ensures r.uploading == s.uploading
  {
    s.(showDeleteDialog := false, fileToDelete := None)
  }

  /** The dialog's own dismissal (Escape, a click on the overlay, the close button) goes
      through `onOpenChange`, which only lowers `showDeleteDialog`: the target stays
      remembered while the dialog is closed. */
  function DismissDeleteDialog(s: Ledger): (r: Ledger)
    ensures !r.showDeleteDialog && r.fileToDelete == s.fileToDelete
    ensures r.files == s.files && r.uploading == s.uploading
  {
    s.(showDeleteDialog := false)
  }

  /** A target left behind by a dismissal is never confirmed by mistake: the dialog opens
      again only through `RequestDelete`, which replaces it, and confirming then deletes
      exactly as if the dismissal had not happened. */
  lemma DismissedTargetIsReplaced(s: Ledger, id: string, id2: string, ok: bool)
    ensures var d := DismissDeleteDialog(RequestDelete(s, id));
      && d.fileToDelete == Some(id) && !d.showDeleteDialog
      && RequestDelete(d, id2) == RequestDelete(s, id2)
      && ConfirmDelete(RequestDelete(d, id2), ok) == ConfirmDelete(RequestDelete(s, id2), ok)
  {
  }

  /** The rows of `files` whose id is not `id`, in their order. */
  function RemoveId(files: seq<UploadedFile>, id: string): (r: seq<UploadedFile>)
    ensures forall f :: f in r <==> f in files && f.id != id
    ensures forall f :: multiset(r)[f] == if f.id != id then multiset(files)[f] else 0
    ensures SubsequenceOf(r, files)
    ensures id !in Ids(files) ==> r == files
  {
    if files == [] then []
    else
      assert files == [files[0]] + files[1..];
      if files[0].id == id then RemoveId(files[1..], id)
      else [files[0]] + RemoveId(files[1..], id)
  }

  /** `confirmDeleteFile`. No target (or an empty id, which the source's `!fileToDelete`
      also rejects) changes nothing. Otherwise the rows with the target id are dropped
      only when the server confirmed the delete, a failed delete is swallowed, and in both
      cases the dialog closes and the target is forgotten. */
  function ConfirmDelete(s: Ledger, deleted: bool): (r: Ledger)
    ensures (s.fileToDelete == None || s.fileToDelete == Some("")) ==> r == s
    ensures s.fileToDelete.Some? && s.fileToDelete.value != "" ==>
      && !r.showDeleteDialog && r.fileToDelete == None && r.uploading == s.uploading
      && (!deleted ==> r.files == s.files)
      && (deleted ==> (forall f :: f in r.files <==> f in s.files && f.id != s.fileToDelete.value)
                      && (forall f :: multiset(r.files)[f] ==
                            if f.id != s.fileToDelete.value then multiset(s.files)[f] else 0)
                      && SubsequenceOf(r.files, s.files))
  {
    match s.fileToDelete
    case None => s
    case Some(id) =>
      if id == "" then s
      else
        var files := if deleted then RemoveId(s.files, id) else s.files;
        s.(files := files, showDeleteDialog := false, fileToDelete := None)
  }

  /** Asking to delete a row and confirming, with the server agreeing, removes that row
      and every other row sharing its id and keeps the remaining rows in order. */
  lemma DeleteRoundTrip(s: Ledger, id: string)
    requires id != ""
    ensures var r := ConfirmDelete(RequestDelete(s, id), true);
      && id !in Ids(r.files)
      && (forall f :: f in s.files && f.id != id ==> f in r.files)
      && r.fileToDelete == None && !r.showDeleteDialog
  {
  }
}

=== FILE: pairing.dfy ===
/** The message list's grouping pass: walk the transcript left to right, take a user
    message and the assistant message right after it as one pair, and anything else as a
    group of its own. */
module Pairing {
  import opened Common
  import opened Transcript
  import Text

  datatype Group = Pair(question: ChatMessage, reply: ChatMessage) | Single(message: ChatMessage)

  function Members(g: Group): seq<ChatMessage> {
    match g
    case Pair(q, a) => [q, a]
    case Single(m) => [m]
  }

  function First(g: Group): ChatMessage {
    match g
    case Pair(q, _) => q
    case Single(m) => m
  }

  /** The messages of the groups, in group order. */
  function Flatten(gs: seq<Group>): seq<ChatMessage> {
    if gs == [] then [] else Members(gs[0]) + Flatten(gs[1..])
  }

  /** A pair is always a user message followed by an assistant message. */
  predicate WellFormed(g: Group) {
    g.Pair? ==> g.question.role == User && g.reply.role == Assistant
  }

  /** No user message stands alone while an assistant message follows right after it. */
  predicate Greedy(gs: seq<Group>) {
    forall i :: 0 <= i < |gs| - 1 && gs[i].Single? && gs[i].message.role == User ==>
      First(gs[i + 1]).role != Assistant
  }

  /** The grouping, one step per group. It never drops, duplicates or reorders a message
      (the groups flatten back to the input) and yields at most one group per message. */
  function PairUp(ms: seq<ChatMessage>): (gs: seq<Group>)
    ensures |gs| <= |ms|
    ensures |ms| > 0 ==> |gs| > 0
    decreases |ms|
  {
    if |ms| == 0 then []
    else if |ms| >= 2 && ms[0].role == User && ms[1].role == Assistant then
      [Pair(ms[0], ms[1])] + PairUp(ms[2..])
    else
      [Single(ms[0])] + PairUp(ms[1..])
  }

  /** No message is dropped, duplicated or moved: the groups flatten back to the input. */
  lemma {:induction false} PairUpFlattens(ms: seq<ChatMessage>)
    ensures Flatten(PairUp(ms)) == ms
    decreases |ms|
  {
    if |ms| > 0 {
      var gs := PairUp(ms);
      if |ms| >= 2 && ms[0].role == User && ms[1].role == Assistant {
        PairUpFlattens(ms[2..]);
        assert gs[1..] == PairUp(ms[2..]);
        assert ms == [ms[0], ms[1]] + ms[2..];
      } else {
        PairUpFlattens(ms[1..]);
        assert gs[1..] == PairUp(ms[1..]);
        assert ms == [ms[0]] + ms[1..];
      }
    }
  }

  /** The grouping forms only well-formed pairs, and pairs whenever it can. */
  lemma {:induction false} PairUpWellGrouped(ms: seq<ChatMessage>)
    ensures forall i :: 0 <= i < |PairUp(ms)| ==> WellFormed(PairUp(ms)[i])
    ensures Greedy(PairUp(ms))
    decreases |ms|
  {
    if |ms| > 0 {
      var gs := PairUp(ms);
      var tail := if |ms| >= 2 && ms[0].role == User && ms[1].role == Assistant then ms[2..] else ms[1..];
      var rest := PairUp(tail);
      PairUpWellGrouped(tail);
      assert gs == [gs[0]] + rest;
      assert forall i :: 1 <= i < |gs| ==> gs[i] == rest[i - 1];
      if rest != [] && gs[0].Single? {
        PairUpFlattens(tail);
        assert tail == ms[1..];
        assert Flatten(rest)[0] == First(rest[0]);
      }
    }
  }

  /** Dropping the first group keeps a grouping well formed and greedy. */
  lemma GroupingTail(gs: seq<Group>)
    requires gs != []
    requires forall i :: 0 <= i < |gs| ==> WellFormed(gs[i])
    requires Greedy(gs)
    ensures forall i :: 0 <= i < |gs[1..]| ==> WellFormed(gs[1..][i])
    ensures Greedy(gs[1..])
  {
    var rest := gs[1..];
    forall i | 0 <= i < |rest| - 1 && rest[i].Single? && rest[i].message.role == User
      ensures First(rest[i + 1]).role != Assistant
    {
      assert rest[i] == gs[i + 1] && rest[i + 1] == gs[i + 2];
    }
  }

  /** Greedy grouping is the only grouping: any well-formed, greedy grouping of `ms`
      that flattens back to `ms` is `PairUp(ms)`. */
  lemma {:induction false} PairUpUnique(ms: seq<ChatMessage>, gs: seq<Group>)
    requires Flatten(gs) == ms
    requires forall i :: 0 <= i < |gs| ==> WellFormed(gs[i])
    requires Greedy(gs)
    ensures gs == PairUp(ms)
    decreases |gs|
  {
    if gs != [] {
      var rest := gs[1..];
      GroupingTail(gs);
      assert ms == Members(gs[0]) + Flatten(rest);
      match gs[0]
      case Pair(q, a) =>
        assert WellFormed(gs[0]);
        assert ms[2..] == Flatten(rest);
        PairUpUnique(ms[2..], rest);
      case Single(m) =>
        assert ms[1..] == Flatten(rest);
        PairUpUnique(ms[1..], rest);
    }
  }

  /** One step of the grouping, taken at position `i`. */
  lemma PairUpAt(ms: seq<ChatMessage>, i: nat)
    requires i < |ms|
    ensures i + 1 < |ms| && ms[i].role == User && ms[i + 1].role == Assistant ==>
      PairUp(ms[i..]) == [Pair(ms[i], ms[i + 1])] + PairUp(ms[i + 2..])
    ensures !(i + 1 < |ms| && ms[i].role == User && ms[i + 1].role == Assistant) ==>
      PairUp(ms[i..]) == [Single(ms[i])] + PairUp(ms[i + 1..])
  {
    if i + 1 < |ms| { assert ms[i..][2..] == ms[i + 2..]; }
    assert ms[i..][1..] == ms[i + 1..];
  }

  /** The loop's step keeps "groups so far, then the grouping of the rest" equal to the
      grouping of the whole. */
  lemma PairStep(ms: seq<ChatMessage>, gs: seq<Group>, i: nat)
    requires i < |ms| && gs + PairUp(ms[i..]) == PairUp(ms)
    ensures i + 1 < |ms| && ms[i].role == User && ms[i + 1].role == Assistant ==>
      (gs + [Pair(ms[i], ms[i + 1])]) + PairUp(ms[i + 2..]) == PairUp(ms)
    ensures !(i + 1 < |ms| && ms[i].role == User && ms[i + 1].role == Assistant) ==>
      (gs + [Single(ms[i])]) + PairUp(ms[i + 1..]) == PairUp(ms)
  {
    PairUpAt(ms, i);
    if i + 1 < |ms| && ms[i].role == User && ms[i + 1].role == Assistant {
      Regroup(gs, Pair(ms[i], ms[i + 1]), PairUp(ms[i + 2..]), PairUp(ms));
    } else {
      Regroup(gs, Single(ms[i]), PairUp(ms[i + 1..]), PairUp(ms));
    }
  }

  /** The render loop of the message list: the index moves by 2 after a pair and by 1
      after a single, so it ends after at most `|ms|` groups, with exactly the grouping
      above, which flattens back to the messages. */
  method PairMessages(ms: seq<ChatMessage>) returns (gs: seq<Group>)
    ensures gs == PairUp(ms)
    ensures Flatten(gs) == ms && |gs| <= |ms|
  {
    gs := [];
    var i := 0;
    assert ms[0..] == ms;
    while i < |ms|
      invariant 0 <= i <= |ms|
      invariant gs + PairUp(ms[i..]) == PairUp(ms)
      decreases |ms| - i
    {
      PairStep(ms, gs, i);
      if i + 1 < |ms| && ms[i].role == User && ms[i + 1].role == Assistant {
        gs := gs + [Pair(ms[i], ms[i + 1])];
        i := i + 2;
      } else {
        gs := gs + [Single(ms[i])];
        i := i + 1;
      }
    }
    assert ms[i..] == [];
    PairUpFlattens(ms);
  }

  /** Strict question/answer alternation, as the transcript derivation produces: a user
      message, then an assistant message, and so on, ending on an answer. */
  predicate Alternating(ms: seq<ChatMessage>)
    decreases |ms|
  {
    || ms == []
    || (|ms| >= 2 && ms[0].role == User && ms[1].role == Assistant && Alternating(ms[2..]))
  }

  /** An alternating transcript of `2M` messages forms exactly `M` pairs, the `k`-th being
      messages `2k` and `2k + 1`, and no single. */
  lemma {:induction false} AlternatingPairsUp(ms: seq<ChatMessage>)
    requires Alternating(ms)
    ensures |ms| % 2 == 0 && |PairUp(ms)| == |ms| / 2
    ensures forall k :: 0 <= k < |ms| / 2 ==> PairUp(ms)[k] == Pair(ms[2 * k], ms[2 * k + 1])
    decreases |ms|
  {
    if ms != [] {
      var tail := ms[2..];
      AlternatingPairsUp(tail);
      var gs := PairUp(ms);
      assert gs == [Pair(ms[0], ms[1])] + PairUp(tail);
      forall k | 1 <= k < |ms| / 2 ensures gs[k] == Pair(ms[2 * k], ms[2 * k + 1]) {
        assert gs[k] == PairUp(tail)[k - 1];
        assert tail[2 * (k - 1)] == ms[2 * k] && tail[2 * (k - 1) + 1] == ms[2 * k + 1];
      }
    }
  }

  /** A question still waiting for its answer at the end of an alternating transcript
      becomes one trailing single; the pairs before it are unchanged. */
  lemma {:induction false} TrailingQuestionIsSingle(ms: seq<ChatMessage>, u: ChatMessage)
    requires Alternating(ms) && u.role == User
    ensures PairUp(ms + [u]) == PairUp(ms) + [Single(u)]
    decreases |ms|
  {
    if ms == [] {
      assert ms + [u] == [u];
    } else {
      var tail := ms[2..];
      TrailingQuestionIsSingle(tail, u);
      assert (ms + [u])[2..] == tail + [u];
    }
  }

  /** The expansion of any records alternates question, answer, question, answer, ... */
  lemma {:induction false} ExpandAlternates(s: seq<QAItem>, start: nat)
    ensures Alternating(Expand(s, start))
    decreases |s|
  {
    if s != [] {
      ExpandAlternates(s[1..], start + 1);
      ExpandCons(s, start);
      assert Expand(s, start)[2..] == Expand(s[1..], start + 1);
    }
  }

  /** The derived transcript alternates question, answer, question, answer, ... */
  lemma TranscriptAlternates(items: seq<QAItem>)
    ensures Alternating(DeriveTranscript(items))
  {
    ExpandAlternates(SortByTime(items), 0);
  }

  /** The derived transcript of `M` records groups into exactly `M` pairs, the `k`-th
      holding the question and answer of the `k`-th record in time order. */
  lemma TranscriptPairs(items: seq<QAItem>)
    ensures var gs := PairUp(DeriveTranscript(items));
      && |gs| == |items|
      && forall k :: 0 <= k < |items| ==>
           gs[k] == Pair(Question(SortByTime(items)[k], k), Answer(SortByTime(items)[k], k))
  {
    var sorted := SortByTime(items);
    ExpandAlternates(sorted, 0);
    AlternatingPairsUp(Expand(sorted, 0));
    forall k | 0 <= k < |items|
      ensures PairUp(DeriveTranscript(items))[k] == Pair(Question(sorted[k], k), Answer(sorted[k], k))
    {
      TranscriptPairAt(items, k);
    }
  }

  lemma TranscriptPairAt(items: seq<QAItem>, k: nat)
    requires k < |items|
    ensures var gs := PairUp(DeriveTranscript(items));
      k < |gs| && gs[k] == Pair(Question(SortByTime(items)[k], k), Answer(SortByTime(items)[k], k))
  {
    var sorted := SortByTime(items);
    var ms := Expand(sorted, 0);
    ExpandAlternates(sorted, 0);
    AlternatingPairAt(ms, k);
    ExpandAt(sorted, 0, k);
  }

  /** One pair of an alternating transcript. */
  lemma AlternatingPairAt(ms: seq<ChatMessage>, k: nat)
    requires Alternating(ms) && k < |ms| / 2
    ensures k < |PairUp(ms)| && PairUp(ms)[k] == Pair(ms[2 * k], ms[2 * k + 1])
  {
    AlternatingPairsUp(ms);
  }

  /** The React key of a group: the two message ids joined by "-", with `ai-<index>` in
      place of the missing answer of a single. Within the model the `user-<index>`
      fallback never applies, because every message has a string id; README "## Left out"
      describes the shared-key case where the source takes it. */
  function PairKey(g: Group, idx: nat): string {
    match g
    case Pair(q, a) => q.id + "-" + a.id
    case Single(m) => m.id + "-" + "ai-" + Text.NatToString(idx)
  }

  /** In the derived transcript the key of pair `k` is `<stem>-q-<stem>-a`, where the stem
      is the record's message id or `q-k`. */
  lemma TranscriptPairKeys(items: seq<QAItem>, k: nat)
    requires k < |items|
    ensures var gs := PairUp(DeriveTranscript(items));
      var stem := BaseId(SortByTime(items)[k], k);
      k < |gs| && PairKey(gs[k], k) == stem + "-q" + "-" + stem + "-a"
  {
    TranscriptPairAt(items, k);
  }
}

=== FILE: stable_sort.dfy ===
/** A stable sort by an integer key, as `Array.prototype.sort` with the comparator
    `(a, b) => key(a) - key(b)` behaves: the result is ordered by key and elements with
    equal keys keep their input order. Stability is stated through `WithKey`, the
    subsequence of the elements that carry one key. */
module StableSort {
  import opened Common


  predicate SortedBy<T>(s: seq<T>, key: T -> int) {
    forall i, j :: 0 <= i < j < |s| ==> key(s[i]) <= key(s[j])
  }

  /** The elements of `s` whose key is `t`, in the order of `s`. A sort is stable exactly
      when it leaves this sequence unchanged for every `t`. */
  function WithKey<T>(s: seq<T>, key: T -> int, t: int): seq<T> {
    if s == [] then []
    else (if key(s[0]) == t then [s[0]] else []) + WithKey(s[1..], key, t)
  }

  lemma {:induction false} WithKeyMember<T>(s: seq<T>, key: T -> int, t: int, x: T)
    ensures x in WithKey(s, key, t) <==> x in s && key(x) == t
    decreases |s|
  {
    if s != [] {
      WithKeyMember(s[1..], key, t, x);
      assert s == [s[0]] + s[1..];
    }
  }

  /** The elements keyed `t` in `[x] + s`: `x` when it is keyed `t`, then those of `s`. */
  lemma WithKeyCons<T>(x: T, s: seq<T>, key: T -> int, t: int)
    ensures WithKey([x] + s, key, t) == (if key(x) == t then [x] else []) + WithKey(s, key, t)
  {
    assert ([x] + s)[1..] == s;
  }

  /** An element whose key is no larger than the head of a sorted sequence can go in
      front of it. */
  lemma PrependSorted<T>(x: T, s: seq<T>, key: T -> int)
    requires SortedBy(s, key)
    requires s == [] || key(x) <= key(s[0])
    ensures SortedBy([x] + s, key)
  {
    var r := [x] + s;
    forall i, j | 0 <= i < j < |r| ensures key(r[i]) <= key(r[j]) {
      if i == 0 { assert r[j] == s[j - 1]; }
      else { assert r[i] == s[i - 1] && r[j] == s[j - 1]; }
    }
  }

  /** Put `x` in front of the first element of `s` whose key is not smaller. */
  function InsertBy<T>(x: T, s: seq<T>, key: T -> int): (r: seq<T>)
    requires SortedBy(s, key)
    ensures SortedBy(r, key)
    ensures |r| == |s| + 1
    ensures r[0] == x || (|s| > 0 && r[0] == s[0])
    ensures multiset(r) == multiset(s) + multiset{x}
  {
    if s == [] || key(x) <= key(s[0]) then
      PrependSorted(x, s, key);
      [x] + s
    else
      var rest := InsertBy(x, s[1..], key);
      assert s == [s[0]] + s[1..];
      PrependSorted(s[0], rest, key);
      [s[0]] + rest
  }

  /** When `x` goes after the head of `s`, the head stays in front. */
  lemma InsertByBehindHead<T>(x: T, s: seq<T>, key: T -> int)
    requires SortedBy(s, key) && s != [] && key(x) > key(s[0])
    ensures SortedBy(s[1..], key)
    ensures InsertBy(x, s, key) == [s[0]] + InsertBy(x, s[1..], key)
  {
  }

  /** Two pieces of which at least one is empty commute in front of any rest. */
  lemma SwapEmptyFront<T>(h: seq<T>, g: seq<T>, w: seq<T>)
    requires h == [] || g == []
    ensures h + (g + w) == g + (h + w)
  {
    if h == [] { assert h + (g + w) == g + w; } else { assert g + (h + w) == h + w; }
  }

  /** Inserting keeps every key's elements in order, `x` before the equal-key elements
      already present: the insertion is stable. */
  lemma {:induction false} InsertByStable<T>(x: T, s: seq<T>, key: T -> int, t: int)
    requires SortedBy(s, key)
    ensures WithKey(InsertBy(x, s, key), key, t) == WithKey([x] + s, key, t)
    decreases |s|
  {
    if s != [] && key(x) > key(s[0]) {
      InsertByBehindHead(x, s, key);
      var rest := InsertBy(x, s[1..], key);
      InsertByStable(x, s[1..], key, t);
      var hx := if key(x) == t then [x] else [];
      var h0 := if key(s[0]) == t then [s[0]] else [];
      var w1 := WithKey(s[1..], key, t);
      WithKeyCons(s[0], rest, key, t);
      WithKeyCons(x, s[1..], key, t);
      assert WithKey(InsertBy(x, s, key), key, t) == h0 + (hx + w1);
      SwapEmptyFront(h0, hx, w1);
      assert WithKey(s, key, t) == h0 + w1;
      WithKeyCons(x, s, key, t);
    }
  }

  /** Insertion sort by `key`. */
  function SortBy<T>(s: seq<T>, key: T -> int): (r: seq<T>)
    ensures SortedBy(r, key)
    ensures |r| == |s|
    ensures multiset(r) == multiset(s)
  {
    if s == [] then []
    else
      assert s == [s[0]] + s[1..];
      InsertBy(s[0], SortBy(s[1..], key), key)
  }

  /** The sort is stable: elements with equal keys keep their input order. */
  lemma {:induction false} SortByStable<T>(s: seq<T>, key: T -> int, t: int)
    ensures WithKey(SortBy(s, key), key, t) == WithKey(s, key, t)
    decreases |s|
  {
    if s != [] {
      var rest := SortBy(s[1..], key);
      SortByStable(s[1..], key, t);
      InsertByStable(s[0], rest, key, t);
      WithKeyCons(s[0], rest, key, t);
    }
  }

  /** Two sorted sequences with the same elements per key, in the same order, are equal. */
  lemma {:induction false} SortedAgree<T>(a: seq<T>, b: seq<T>, key: T -> int)
    requires SortedBy(a, key) && SortedBy(b, key)
    requires forall t :: WithKey(a, key, t) == WithKey(b, key, t)
    ensures a == b
    decreases |a|
  {
    if a != [] {
      var t := key(a[0]);
      WithKeyMember(a, key, t, a[0]);
      assert b != [];
      var u := key(b[0]);
      WithKeyMember(b, key, u, b[0]);
      WithKeyMember(a, key, u, b[0]);
      WithKeyMember(b, key, t, a[0]);
      assert t == u;
      WithKeyCons(a[0], a[1..], key, t);
      WithKeyCons(b[0], b[1..], key, t);
      assert a == [a[0]] + a[1..] && b == [b[0]] + b[1..];
      assert a[0] == WithKey(a, key, t)[0] == b[0];
      forall t' ensures WithKey(a[1..], key, t') == WithKey(b[1..], key, t') {
        WithKeyCons(a[0], a[1..], key, t');
        WithKeyCons(b[0], b[1..], key, t');
        var h := if key(a[0]) == t' then [a[0]] else [];
        CancelPrefix(h, WithKey(a[1..], key, t'), WithKey(b[1..], key, t'));
      }
      SortedAgree(a[1..], b[1..], key);
    }
  }

  /** Sortedness and stability determine the result: a sorted sequence with the same
      elements per key, in the same order, as `s` is `SortBy(s, key)`. */
  lemma SortByUnique<T>(s: seq<T>, r: seq<T>, key: T -> int)
    requires SortedBy(r, key)
    requires forall t :: WithKey(r, key, t) == WithKey(s, key, t)
    ensures r == SortBy(s, key)
  {
    forall t ensures WithKey(r, key, t) == WithKey(SortBy(s, key), key, t) {
      SortByStable(s, key, t);
    }
    SortedAgree(r, SortBy(s, key), key);
  }
}

=== FILE: text.dfy ===
/** The pieces of JavaScript string behaviour the client relies on: `trim`, `split('\n')`,
    `includes`, the regular expressions `^\d+\.` and `^\d+\.\s*`, and decimal rendering
    of an array index. */
module Text {

  /** The characters `String.prototype.trim` removes and the class `\s` matches: the
      WhiteSpace and LineTerminator productions of ECMAScript (section 12.2 and 12.3 of
      ECMA-262), the Unicode space separators included. */
  predicate IsSpace(c: char) {
    || c == '\t' || c == '\n' || c == '\U{000B}' || c == '\U{000C}' || c == '\r' || c == ' '
    || c == '\U{00A0}' || c == '\U{1680}' || ('\U{2000}' <= c <= '\U{200A}')
    || c == '\U{2028}' || c == '\U{2029}' || c == '\U{202F}' || c == '\U{205F}'
    || c == '\U{3000}' || c == '\U{FEFF}'
  }

  /** The class `\d`: ASCII decimal digits only. */
  predicate IsDigit(c: char) {
    '0' <= c <= '9'
  }

  ghost predicate AllSpace(s: string) {
    forall i :: 0 <= i < |s| ==> IsSpace(s[i])
  }

  /** Number of whitespace characters at the front of `s`. */
  function LeadingSpaces(s: string): (k: nat)
    ensures k <= |s|
    ensures AllSpace(s[..k])
    ensures k == |s| || !IsSpace(s[k])
  {
    if |s| == 0 || !IsSpace(s[0]) then 0
    else
      var k := 1 + LeadingSpaces(s[1..]);
      assert s[1..][..k - 1] == s[1..k];
      k
  }

  /** Index where the whitespace tail of `s` starts. */
  function TrailingStart(s: string): (k: nat)
    ensures k <= |s|
    ensures AllSpace(s[k..])
    ensures k == 0 || !IsSpace(s[k - 1])
  {
    if |s| == 0 || !IsSpace(s[|s| - 1]) then |s|
    else
      var k := TrailingStart(s[..|s| - 1]);
      assert s[k..] == s[..|s| - 1][k..] + [s[|s| - 1]];
      k
  }

  /** `s[i..j]` is what is left of `s` once its whitespace head and tail are cut. */
  ghost predicate TrimmedAt(s: string, i: int, j: int) {
    && 0 <= i <= j <= |s|
    && AllSpace(s[..i]) && AllSpace(s[j..])
    && (i == j || (!IsSpace(s[i]) && !IsSpace(s[j - 1])))
  }

  /** `String.prototype.trim`. */
  function Trim(s: string): (r: string)
    ensures exists i, j :: TrimmedAt(s, i, j) && r == s[i..j]
  {
    var i := LeadingSpaces(s);
    var j := i + TrailingStart(s[i..]);
    assert s[i..][..j - i] == s[i..j];
    assert s[i..][j - i..] == s[j..];
    if i == j then
      assert TrimmedAt(s, i, j);
      s[i..j]
    else
      assert !IsSpace(s[i..][j - i - 1]);
      assert TrimmedAt(s, i, j);
      s[i..j]
  }

  /** Two cuts of `s` with whitespace outside and non-space ends keep the same text. */
  lemma CutsAgree(s: string, i: int, j: int, i': int, j': int)
    requires TrimmedAt(s, i, j) && TrimmedAt(s, i', j')
    ensures s[i..j] == s[i'..j']
  {
    if i == j && i' < j' {
      SpaceOutsideCut(s, i, j, i');
    } else if i' == j' && i < j {
      SpaceOutsideCut(s, i', j', i);
    }
  }

  /** With an empty cut, every character of `s` is whitespace. */
  lemma SpaceOutsideCut(s: string, i: int, j: int, k: int)
    requires TrimmedAt(s, i, j) && i == j && 0 <= k < |s|
    ensures IsSpace(s[k])
  {
    if k < i { assert s[k] == s[..i][k]; } else { assert s[k] == s[j..][k - j]; }
  }

  /** The cut `Trim` makes is the only one: any `s[i..j]` with a whitespace head and tail
      and non-space ends is the trimmed string. */
  lemma TrimUnique(s: string, i: int, j: int)
    requires TrimmedAt(s, i, j)
    ensures Trim(s) == s[i..j]
  {
    var t := Trim(s);
    var i', j' :| TrimmedAt(s, i', j') && t == s[i'..j'];
    CutsAgree(s, i', j', i, j);
  }

  /** A string counts as empty for the client's `!input.trim()` tests. */
  predicate IsBlank(s: string) {
    Trim(s) == ""
  }

  /** `!s.trim()` holds exactly when every character of `s` is whitespace. */
  lemma BlankIffAllSpace(s: string)
    ensures IsBlank(s) <==> AllSpace(s)
  {
    var t := Trim(s);
    var i, j :| TrimmedAt(s, i, j) && t == s[i..j];
    if IsBlank(s) {
      assert i == j;
      forall k | 0 <= k < |s| ensures IsSpace(s[k]) {
        SpaceOutsideCut(s, i, j, k);
      }
    }
  }

  /** Cutting whitespace never reaches past a non-space first and last character: if `s`
      starts with a non-space and `s[m - 1]` is not a space, `Trim(s)` keeps `s[..m]`. */
  lemma TrimKeepsPrefix(s: string, m: nat)
    requires 0 < m <= |s|
    requires !IsSpace(s[0]) && !IsSpace(s[m - 1])
    ensures m <= |Trim(s)| && Trim(s)[..m] == s[..m]
  {
    var t := Trim(s);
    var i, j :| TrimmedAt(s, i, j) && t == s[i..j];
  }

  /** Number of decimal digits at the front of `s`. */
  function LeadingDigits(s: string): (n: nat)
    ensures n <= |s|
    ensures forall k :: 0 <= k < n ==> IsDigit(s[k])
    ensures n == |s| || !IsDigit(s[n])
  {
    if |s| == 0 || !IsDigit(s[0]) then 0 else 1 + LeadingDigits(s[1..])
  }

  /** The test `/^\d+\./`: one or more digits and then a full stop. */
  predicate StartsWithNumberMarker(s: string) {
    var n := LeadingDigits(s);
    1 <= n < |s| && s[n] == '.'
  }

  /** The marker test looks only at the marker itself: a string that shares the first
      `LeadingDigits(s) + 1` characters with a marked `s` is marked too. */
  lemma MarkerByPrefix(s: string, t: string)
    requires StartsWithNumberMarker(s)
    requires LeadingDigits(s) < |t| && t[..LeadingDigits(s) + 1] == s[..LeadingDigits(s) + 1]
    ensures StartsWithNumberMarker(t)
  {
    var n := LeadingDigits(s);
    var m := LeadingDigits(t);
    assert forall k :: 0 <= k <= n ==> t[k] == s[k] by {
      forall k | 0 <= k <= n ensures t[k] == s[k] {
        assert t[k] == t[..n + 1][k];
      }
    }
  }

  /** `line.replace` of the pattern `^\d+\.\s*` by "": drop a leading marker and the
      whitespace after it; a string without a marker at its very first character is kept. */
  function StripNumberMarker(line: string): (r: string)
    ensures !StartsWithNumberMarker(line) ==> r == line
    ensures StartsWithNumberMarker(line) ==>
      var n := LeadingDigits(line);
      && |r| <= |line| - (n + 1) && r == line[|line| - |r|..]
      && AllSpace(line[n + 1..|line| - |r|])
      && (r == "" || !IsSpace(r[0]))
  {
    if StartsWithNumberMarker(line) then
      var rest := line[LeadingDigits(line) + 1..];
      var k := LeadingSpaces(rest);
      assert rest[..k] == line[LeadingDigits(line) + 1..|line| - |rest[k..]|];
      rest[k..]
    else line
  }

  /** `s.includes(sub)`. */
  predicate Contains(s: string, sub: string) {
    exists i :: 0 <= i <= |s| && sub <= s[i..]
  }

  /** Index of the first `c` in `s`, or `|s|` when there is none. */
  function IndexOf(s: string, c: char): (i: nat)
    ensures i <= |s|
    ensures forall k :: 0 <= k < i ==> s[k] != c
    ensures i < |s| ==> s[i] == c
  {
    if |s| == 0 || s[0] == c then 0 else 1 + IndexOf(s[1..], c)
  }

  /** `parts.join(sep)`. */
  function Join(parts: seq<string>, sep: char): string {
    if |parts| == 0 then ""
    else if |parts| == 1 then parts[0]
    else parts[0] + [sep] + Join(parts[1..], sep)
  }

  /** `s.split(sep)` for a one-character separator: never empty (the empty string splits
      into one empty piece), no piece holds the separator, and joining the pieces back
      with the separator gives `s`. */
  function Split(s: string, sep: char): (parts: seq<string>)
    ensures |parts| >= 1
    ensures forall p :: p in parts ==> sep !in p
    ensures Join(parts, sep) == s
    decreases |s|
  {
    var i := IndexOf(s, sep);
    if i == |s| then [s]
    else
      var rest := Split(s[i + 1..], sep);
      assert s == s[..i] + [sep] + s[i + 1..];
      [s[..i]] + rest
  }

  /** The first piece of a split is the text before the first separator. */
  lemma SplitHead(s: string, sep: char)
    ensures Split(s, sep)[0] == s[..IndexOf(s, sep)]
  {
  }

  /** Every separator in `s` starts a new piece: the text that follows it, up to the next
      separator, is one of the pieces of `Split(s, sep)`. */
  lemma {:induction false} SplitAfterSeparator(s: string, sep: char, i: nat)
    requires i < |s| && s[i] == sep
    ensures Split(s[i + 1..], sep)[0] in Split(s, sep)
    decreases |s|
  {
    var j := IndexOf(s, sep);
    assert j <= i;
    var tail := s[j + 1..];
    assert Split(s, sep) == [s[..j]] + Split(tail, sep);
    if j < i {
      assert tail[i - j - 1] == sep;
      assert tail[i - j..] == s[i + 1..];
      SplitAfterSeparator(tail, sep, i - j - 1);
    }
  }

  function DigitChar(d: nat): (c: char)
    requires d < 10
    ensures IsDigit(c)
  {
    ['0', '1', '2', '3', '4', '5', '6', '7', '8', '9'][d]
  }

  /** Decimal rendering of a natural number, as template-literal interpolation prints an
      array index. */
  function NatToString(n: nat): (r: string)
    ensures |r| >= 1
    ensures forall k :: 0 <= k < |r| ==> IsDigit(r[k])
  {
    if n < 10 then [DigitChar(n)] else NatToString(n / 10) + [DigitChar(n % 10)]
  }

  function DigitValue(c: char): nat
    requires IsDigit(c)
  {
    c as int - '0' as int
  }

  /** The number a string of decimal digits denotes. */
  function DigitsValue(s: string): nat
    requires forall k :: 0 <= k < |s| ==> IsDigit(s[k])
    decreases |s|
  {
    if s == [] then 0
    else DigitsValue(s[..|s| - 1]) * 10 + DigitValue(s[|s| - 1])
  }

  /** Reading the rendering back gives the number, and it has no leading zero. */
  lemma {:induction false} NatToStringRoundTrip(n: nat)
    ensures DigitsValue(NatToString(n)) == n
    ensures n > 0 ==> NatToString(n)[0] != '0'
    decreases n
  {
    var r := NatToString(n);
    if n < 10 {
      assert r == [DigitChar(n)];
      assert r[..0] == [];
    } else {
      var p := NatToString(n / 10);
      NatToStringRoundTrip(n / 10);
      assert r == p + [DigitChar(n % 10)];
      assert r[..|r| - 1] == p;
      assert DigitValue(DigitChar(n % 10)) == n % 10;
    }
  }
}

=== FILE: transcript.dfy ===
/** The chat page's transcript: the server's flat question/answer records, stably sorted
    by timestamp and expanded into a user message and an assistant message each.
    Timestamps are the milliseconds `new Date(timestamp).getTime()` yields. */
module Transcript {
  import opened Common
  import opened StableSort
  import Text

  /** One stored exchange as the chat-history endpoint returns it. */
  datatype QAItem = QAItem(
    messageId: string,
    question: string,
    answer: string,
    timestamp: int,
    sources: Option<seq<string>>)

  datatype Role = User | Assistant

  /** One rendered message; only assistant messages carry sources. */
  datatype ChatMessage = ChatMessage(
    id: string,
    role: Role,
    content: string,
    timestamp: int,
    sources: Option<seq<string>>)

  function TimeOf(item: QAItem): int {
    item.timestamp
  }

  /** The copy of the records sorted by a comparator that subtracts the parsed times of
      two records: the engine's sort is stable, so this is `SortBy` keyed by time. The
      input is a value, so the copy the source takes before sorting is implicit. */
  function SortByTime(items: seq<QAItem>): seq<QAItem> {
    SortBy(items, TimeOf)
  }

  /** The id stem of a record: its message id, or `q-<index>` when that is empty. */
  function BaseId(item: QAItem, idx: nat): string {
    if item.messageId == "" then "q-" + Text.NatToString(idx) else item.messageId
  }

  function Question(item: QAItem, idx: nat): ChatMessage {
    ChatMessage(BaseId(item, idx) + "-q", User, item.question, item.timestamp, None)
  }

  function Answer(item: QAItem, idx: nat): ChatMessage {
    ChatMessage(BaseId(item, idx) + "-a", Assistant, item.answer, item.timestamp, item.sources)
  }

  /** `s.flatMap((x, idx) => [f(x, idx), g(x, idx)])` with the index counted from
      `start`: element `i` of the result comes from `s[i / 2]`, through `f` when `i` is
      even and through `g` when it is odd. */
  function FlatMapTwo<T, U>(s: seq<T>, start: nat, f: (T, nat) -> U, g: (T, nat) -> U): (r: seq<U>)
    ensures |r| == 2 * |s|
  {
    seq(2 * |s|, i requires 0 <= i < 2 * |s| =>
      if i % 2 == 0 then f(s[i / 2], start + i / 2) else g(s[i / 2], start + i / 2))
  }

  lemma FlatMapTwoAt<T, U>(s: seq<T>, start: nat, f: (T, nat) -> U, g: (T, nat) -> U, k: nat)
    requires k < |s|
    ensures FlatMapTwo(s, start, f, g)[2 * k] == f(s[k], start + k)
    ensures FlatMapTwo(s, start, f, g)[2 * k + 1] == g(s[k], start + k)
  {
    assert (2 * k) / 2 == k && (2 * k + 1) / 2 == k;
  }

  lemma FlatMapTwoCons<T, U>(s: seq<T>, start: nat, f: (T, nat) -> U, g: (T, nat) -> U)
    requires |s| > 0
    ensures FlatMapTwo(s, start, f, g) == [f(s[0], start), g(s[0], start)] + FlatMapTwo(s[1..], start + 1, f, g)
  {
    var r, rest := FlatMapTwo(s, start, f, g), FlatMapTwo(s[1..], start + 1, f, g);
    var e := [f(s[0], start), g(s[0], start)] + rest;
    forall i | 0 <= i < |r| ensures r[i] == e[i] {
      if i >= 2 {
        var k := (i - 2) / 2;
        assert i / 2 == k + 1 && i % 2 == (i - 2) % 2;
        assert s[1..][k] == s[k + 1];
      }
    }
  }

  /** The chat page's expansion of sorted records, whose index starts at `start`: every
      record contributes its question and then its answer. */
  function Expand(s: seq<QAItem>, start: nat): (r: seq<ChatMessage>)
    ensures |r| == 2 * |s|
  {
    FlatMapTwo(s, start, Question, Answer)
  }

  /** Record `k` of the input becomes messages `2k` and `2k + 1`, with index `start + k`. */
  lemma ExpandAt(s: seq<QAItem>, start: nat, k: nat)
    requires k < |s|
    ensures Expand(s, start)[2 * k] == Question(s[k], start + k)
    ensures Expand(s, start)[2 * k + 1] == Answer(s[k], start + k)
  {
    FlatMapTwoAt(s, start, Question, Answer, k);
  }

  /** The expansion of `s` is the first record's two messages followed by the expansion
      of the rest, whose index starts one later. */
  lemma ExpandCons(s: seq<QAItem>, start: nat)
    requires |s| > 0
    ensures Expand(s, start) == [Question(s[0], start), Answer(s[0], start)] + Expand(s[1..], start + 1)
  {
    FlatMapTwoCons(s, start, Question, Answer);
  }

  /** The chat page's history query: sort, then expand. */
  function DeriveTranscript(items: seq<QAItem>): seq<ChatMessage> {
    Expand(SortByTime(items), 0)
  }

  /** `M` records give `2M` messages; message `2k` is the question and `2k + 1` the answer
      of the `k`-th record in time order, both stamped with its time, ids derived from its
      message id (or `q-k` when it has none), and sources on the answer only. */
  lemma TranscriptShape(items: seq<QAItem>, k: nat)
    requires k < |items|
    ensures var r := DeriveTranscript(items);
      var item := SortByTime(items)[k];
      var stem := if item.messageId == "" then "q-" + Text.NatToString(k) else item.messageId;
      && |r| == 2 * |items|
      && r[2 * k].role == User && r[2 * k + 1].role == Assistant
      && r[2 * k].id == stem + "-q" && r[2 * k + 1].id == stem + "-a"
      && r[2 * k].content == item.question && r[2 * k + 1].content == item.answer
      && r[2 * k].timestamp == item.timestamp && r[2 * k + 1].timestamp == item.timestamp
      && r[2 * k].sources == None && r[2 * k + 1].sources == item.sources
  {
    ExpandAt(SortByTime(items), 0, k);
  }

  /** Message `i` of the expansion carries the time of record `i / 2`. */
  lemma ExpandTime(s: seq<QAItem>, start: nat, i: nat)
    requires i < 2 * |s|
    ensures Expand(s, start)[i].timestamp == s[i / 2].timestamp
  {
    var k := i / 2;
    ExpandAt(s, start, k);
    if i % 2 == 0 { assert i == 2 * k; } else { assert i == 2 * k + 1; }
  }

  /** The transcript's timestamps never decrease. */
  lemma TranscriptOrdered(items: seq<QAItem>, i: nat, j: nat)
    requires i <= j < |DeriveTranscript(items)|
    ensures DeriveTranscript(items)[i].timestamp <= DeriveTranscript(items)[j].timestamp
  {
    var sorted := SortByTime(items);
    ExpandTime(sorted, 0, i);
    ExpandTime(sorted, 0, j);
    assert i / 2 <= j / 2;
  }
}
